=== FILE: README.md ===
# Cinema admin panel: the booking ledger

This project models the booking ledger of a cinema administration panel.
The panel is a set of browser pages: films, rooms (*salles*), sessions
(*séances*), clients, reservations, and a dashboard. Each page keeps
in memory the lists it shows: the films page only films, the rooms page
only rooms, the clients page clients and reservations, the sessions and
reservations pages and the dashboard several lists each. The rooms page's
delete handler reads the stored sessions for its guard
(js/salles.js:108). The pages guard every change to these lists:

- **Seat accounting.** There are two versions of "seats left". The
  reservations page skips cancelled bookings. The sessions page counts them.
- **Capacity check.** A booking is refused when it would overfill its
  session's room.
- **Room/date/time conflict check** for sessions.
- **Email uniqueness check** for clients.
- **Delete guards** for rooms, sessions and clients. A film can always be
  deleted.
- **Id assignment.** A new record gets "largest id + 1", or 1 when the list
  is empty.
- **Update-by-merge.** An edit keeps the id, the booking date and the
  registration date.
- **Table pagination**, five rows per page.
- **Dashboard aggregates:** revenue, ages, genre counts, room occupancy and
  the top five films.

Layout:

- `records.dfy`: the record types, the form data and the `Outcome` of every
  handler.
- `collections.dfy`: the list operations every page repeats (`find`,
  `findIndex`, `filter`, next id), written once over an id selector.
- `sessions.dfy`, `reservations.dfy`, `clients.dfy`, `rooms.dfy`,
  `films.dfy`: the pure rules of each page.
- `pagination.dfy`: the page window and the `Pager` class.
- `dashboard.dfy`: the chart figures. The genre count is a loop, so
  `CountGenres` is a method with invariants.
- `ledger.dfy`: the class `Ledger`. It holds the five lists as `seq`
  fields and has one method per submit or delete handler. Each method
  checks before it writes, so a refused request changes nothing. Each
  method states its whole new state, and that it keeps `Valid()`:
  - unique ids in all five lists;
  - no room booked twice at the same date and time;
  - distinct client emails;
  - every reservation names an existing session.

  Where the code allows it, a method also keeps `WithinCapacity()`: no
  session holds more non-cancelled seats than its room has.

Conventions:

- Prices are integer cents.
- Ids, seat counts, capacities and durations are positive integers (`Pos`).
  Since ids are positive, the code's `if (editingId)` test is the same as
  `editingId.Some?`.
- The code's `confirm` dialog becomes a `confirmed` flag. A refusal gives
  the outcome `Declined` and changes nothing.
- The current date is a parameter.

The capacity invariant has limits:

- **What keeps it.** Reservation submits keep it when started from a
  consistent (`Valid()`) ledger, and reservation deletes always keep it.
  Adding a session keeps it from a consistent ledger. Adding a room, and
  deleting a session or an unused room, always keep it.
- **What breaks it.** Editing a room's capacity or moving a session to
  another room re-checks nothing. `Rooms.RoomEditCanOverbook` and
  `Reservations.SessionEditCanOverbook` show each one overbooking a
  session.

Five behaviours of the code are kept as written, though they may not be
what a reader expects:

- **Ids can be reused.** The next id is computed from the records that
  remain. So deleting the record with the largest id frees that id for the
  next record added (`Collections.NextIdReusesDeletedMax`,
  `Collections.DeletedMaxIdIsReused`).
- **Films have no delete guard.** Unlike the room, session and client
  deletes, `deleteFilm` checks nothing. A film's sessions are left naming a
  missing film (`Films.DeleteFilmOrphansItsSessions`).
- **A booking's client is never checked.** The reservation submit handler
  (js/reservations.js:291-334) looks up the session and the room but never
  the client. A booking or an edit naming a client that does not exist is
  accepted. `BookingLedger.Ledger.SubmitReservation` follows the code: its
  outcome and new state depend only on the sessions, rooms and reservations,
  never on the clients.
- **Cancelling counts as asking for seats.** The capacity test
  (js/reservations.js:304-317) adds the form's seats whatever its status. In
  an overbooked session, re-saving a booking as cancelled is refused
  (`Reservations.CancellingInOverbookedSessionRefused`).
- **Seats left has two definitions.** The two pages' `getAvailableSeats`
  differ, and both are kept:
  - `Sessions.GrossAvailableSeats` models the sessions page.
  - `Reservations.AvailableSeats` models the reservations page.

  `Reservations.GrossAvailableAtMostAvailable` states how they relate.

Edge cases of the code that the model keeps:

- **Editing a missing id** (a film, room or session the list no longer
  has). The code assigns to `list[-1]`, which leaves the array's elements
  as they were, and then reports success. The model returns `Ok` with no
  change.
- **Editing a missing client or reservation.** The code reads a field of
  `list[-1]` and throws, so the model returns `NotFound`. For a reservation
  this happens only after the capacity check has passed.
- **A booking for a session that does not exist.** The code throws at
  `session.roomId`, so the model returns `NotFound`. This comes before the
  capacity check.
- **The sessions page's seats left** reads `session.roomId` without checking
  the session. So `GrossAvailableSeats` requires that the session exists.

## Model

| member | source | states |
|---|---|---|
| Records.IsOther | js/seances.js:217 | the editing exclusion of the conflict, email and capacity checks (also js/clients.js:191, js/reservations.js:307): every record when adding, all but the edited one when editing |
| Collections.MaxId | js/films.js:148 | the largest id is the id of some record and no record's id exceeds it |
| Collections.NextId | js/films.js:148-149 | a new id is larger than every id in the list; it is 1 for an empty list and otherwise one more than an id present |
| Collections.FindIndex | js/films.js:143 | the index found holds the id and no earlier record does; none is found exactly when no record has the id |
| Collections.Find | js/reservations.js:50 | the record found is the first one with that id (the one at the index `FindIndex` gives), none exactly when the id is absent, and with unique ids it is the record holding the id |
| Collections.Remove | js/films.js:109 | the filter keeps exactly the records whose id differs: each one kept is from the list and lacks the id, and each such record of the list is kept |
| Collections.RemoveKeepsOrder | js/reservations.js:267 | the filter distributes over concatenation, so survivors keep their order |
| Collections.RemoveAbsent | js/salles.js:116 | deleting an id nobody has leaves the list unchanged |
| Collections.RemoveKeepsPairwise | js/clients.js:155 | a pairwise relation between records (distinct emails, distinct slots) survives a delete |
| Collections.RemoveKeepsUniqueIds | js/seances.js:182 | unique ids stay unique after a delete |
| Collections.FindAfterRemove | js/salles.js:116 | deleting one id does not change what a search for any other id finds |
| Collections.RemoveKeepsOtherIds | js/seances.js:182 | after a delete, every other id is present exactly when it was before |
| Collections.FindAppend | js/salles.js:155-156 | after a push, a search finds the earlier record when there is one, else the pushed one when it has the id |
| Collections.AppendNextIdKeepsUniqueIds | js/reservations.js:331-332 | pushing a record with the next id keeps ids unique |
| Collections.UpdateSameIdKeepsUniqueIds | js/reservations.js:324-327 | overwriting a record with one of the same id keeps ids unique |
| Collections.NextIdReusesDeletedMax | js/films.js:109-149 | once the record with the largest id is deleted, the next id is at most that id (ids are reused) |
| Collections.DeletedMaxIdIsReused | js/films.js:109-149 | films 1, 2, 3: deleting film 3 makes the next film id 3 again |
| Sessions.RoomCapacity | js/seances.js:32-35 | the capacity is 0 exactly when no room has the id, and is that room's capacity when ids are unique |
| Sessions.AllSeats | js/seances.js:38-39 | the seats of every reservation for the session, in any status; zero exactly when no reservation names it (`AllSeatsZeroWithoutReservations`) |
| Sessions.SessionCapacity | js/reservations.js:50-55 | an existing session has the capacity of its room, 0 when no room has its room id; a session that does not exist has 0, as `getAvailableSeats` returns at line 52 (the submit handler throws at line 312 instead, which the ledger models as `NotFound`) |
| Sessions.GrossAvailableSeats | js/seances.js:37-43 | seats left on the sessions page plus the seats of every reservation for the session, in any status, equal the capacity of its room |
| Sessions.NewSession | js/seances.js:235-236 | the pushed session has the given id and exactly the form's fields |
| Sessions.MergeSession | js/seances.js:230-231 | the merged session keeps its id and takes every other field, and so its room, date and time, from the form |
| Sessions.Conflict | js/seances.js:216-221 | another session than the edited one holds the form's room at its date and time; its meaning is fixed by `AddSessionKeepsNoDoubleBooking`, `EditSessionKeepsNoDoubleBooking` and `ResaveOwnSlotHasNoConflict` |
| Sessions.AddSessionKeepsNoDoubleBooking | js/seances.js:216-237 | a session added after the conflict check passed leaves no room booked twice at a date and time |
| Sessions.EditSessionKeepsNoDoubleBooking | js/seances.js:216-232 | a session edited after the conflict check passed leaves no room booked twice, given unique session ids |
| Sessions.ResaveOwnSlotHasNoConflict | js/seances.js:216-221 | re-saving a session into its own room, date and time passes the conflict check |
| Sessions.HasReservations | js/seances.js:175-177 | the delete guard: some reservation, in any status, names the session |
| Sessions.AllSeatsZeroWithoutReservations | js/seances.js:175-180 | a session has booked seats in any status exactly when a reservation names it, which is the delete guard |
| Reservations.AvailableSeats | js/reservations.js:44-58 | seats left on the reservations page: 0 for an unknown session, otherwise the seats left plus the non-cancelled seats equal the capacity of the room (0 for a missing room) |
| Reservations.Held | js/reservations.js:304-310 | the seats a booking holds in the capacity check: at most its own, and none when cancelled or for another session |
| Reservations.SeatsHeld | js/reservations.js:304-310 | the filter-and-sum of the capacity check, never more than the seats of all the session's reservations |
| Reservations.ActiveSeats | js/reservations.js:45-49 | the seats of the session's non-cancelled reservations, never more than all its seats |
| Reservations.CancelledSeats | js/seances.js:38-39 | the seats of the session's cancelled reservations, never more than all its seats; the two pages differ by exactly this (`GrossAvailableAtMostAvailable`) |
| Reservations.AllSeatsSplit | js/seances.js:38-39 | the seats of all reservations for a session are those of the non-cancelled ones plus those of the cancelled ones |
| Reservations.CancelledSeatsZero | js/reservations.js:45-48 | cancelled bookings hold seats for a session exactly when one exists |
| Reservations.GrossAvailableAtMostAvailable | js/seances.js:37-43 | the sessions page shows the reservations page's figure less the cancelled seats, so never more, and the same exactly when the session has no cancelled booking |
| Reservations.SeatsHeldAppend | js/reservations.js:331-332 | pushing a booking adds its own held seats to the capacity-check sum |
| Reservations.SeatsHeldUpdate | js/reservations.js:324-327 | overwriting a booking swaps its held seats in the sum for those of its replacement |
| Reservations.SeatsHeldAbsentId | js/reservations.js:304-308 | excluding an id no booking has excludes nothing from the sum |
| Reservations.SeatsHeldWithoutEdited | js/reservations.js:304-310 | with unique ids, the non-cancelled seats of a session are the sum the check uses when editing a booking plus that booking's own |
| Reservations.RemoveLowersActiveSeats | js/reservations.js:267 | deleting bookings never adds seats to a session |
| Reservations.CapacityRespectedIffNoneNegative | js/reservations.js:44-58 | every session is within capacity exactly when no listed session shows a negative number of seats left |
| Reservations.ExceedsCapacity | js/reservations.js:304-317 | the refusal test: the other non-cancelled seats of the session plus the seats asked for exceed its capacity; `AddKeepsCapacity` and `EditKeepsCapacity` give its meaning |
| Reservations.NewReservation | js/reservations.js:330-332 | the pushed booking has the given id, today's booking date and exactly the form's fields |
| Reservations.MergeReservation | js/reservations.js:325-327 | the edited booking keeps its id and booking date and takes every other field from the form |
| Reservations.AddKeepsCapacity | js/reservations.js:315-332 | a booking added after the check passed leaves its session within capacity, and every session if all were |
| Reservations.EditKeepsCapacity | js/reservations.js:315-327 | a booking edited after the check passed leaves its session within capacity, and every session if all were, given unique ids |
| Reservations.DeleteKeepsCapacity | js/reservations.js:265-267 | deleting bookings keeps every session within capacity |
| Reservations.CapacityScenario | js/reservations.js:303-332 | room of 100: 60 seats pass and leave 40, 50 more are refused, 40 more pass and leave 0, cancelling the first gives 60 back |
| Reservations.CancellingInOverbookedSessionRefused | js/reservations.js:304-317 | with 60 seats booked in a room of 50, re-saving the booking as cancelled is refused, while re-saving it with 50 seats passes |
| Reservations.SessionEditCanOverbook | js/seances.js:228-232 | moving a session with 60 booked seats into a room of 50 passes and leaves it overbooked |
| Reservations.AddSessionKeepsCapacity | js/seances.js:235-236 | when every booking names an existing session, a session added with the next id has no booking, so all sessions stay within capacity |
| Reservations.AddRoomKeepsCapacity | js/salles.js:155-156 | adding a room never lowers the capacity of a session, so all stay within capacity |
| Reservations.RemoveSessionKeepsCapacity | js/seances.js:182 | deleting a session keeps the others within capacity |
| Reservations.RemoveUnusedRoomKeepsCapacity | js/salles.js:108-116 | deleting a room no session uses keeps every session within capacity |
| Reservations.RemoveUnbookedSessionKeepsSessionsExist | js/seances.js:175-182 | deleting a session no booking names keeps every booking's session present |
| Reservations.RemoveReservationKeepsSessionsExist | js/reservations.js:267 | deleting bookings leaves every remaining one naming an existing session |
| Reservations.Earned | js/reservations.js:78-82 | a booking earns nothing when cancelled or when its session is missing, otherwise its session's price times its seats |
| Reservations.Revenue | js/reservations.js:78-82 | the revenue is 0 when every booking is cancelled; each booking adds what it earns (`TotalsAppend`) |
| Reservations.TotalSeats | js/reservations.js:77 | the seat total counts at least one seat per booking; each booking adds all its seats, cancelled or not (`TotalsAppend`) |
| Reservations.TotalsAppend | js/reservations.js:77-82 | a booking adds what it earns to the revenue and all its seats to the seat total; a cancelled one adds no revenue |
| Reservations.RevenueSkipsCancelledExample | js/reservations.js:78-82 | 2 seats at 10.00 confirmed and 1 seat at 5.00 cancelled earn 20.00, with a seat total of 3 |
| Reservations.TotalSeatsBounds | js/reservations.js:77 | the seat total counts at least one seat per booking and bounds the seats of every session |
| Reservations.OfferedFrom | js/reservations.js:150-162 | a session is offered exactly when it is listed and has seats left, and no more sessions are offered than listed |
| Reservations.OfferedSessions | js/reservations.js:150-162 | the booking form offers exactly the sessions with at least one seat left |
| Clients.ReservationCount | js/clients.js:20-22 | a client's count is at most the number of bookings |
| Clients.ReservationCountZero | js/clients.js:148-153 | the count is 0 exactly when no booking, in any status, names the client, which is the delete guard |
| Clients.ReservationCountAppend | js/clients.js:20-22 | a new booking adds one to its client's count and nothing to any other client's |
| Clients.Age | js/clients.js:30-41 | the difference of the years, less one before the birthday; `AgeCountsAnniversaries` characterises it as the number of birthdays reached |
| Clients.AgeCountsAnniversaries | js/clients.js:30-41 | the age is the number of birthdays reached: a year count has its anniversary on or before today exactly when it is at most the age; someone born on or before today has age at least 0 |
| Clients.EmailTaken | js/clients.js:190-192 | another client than the edited one has exactly this email; its meaning is fixed by the two lemmas below and `KeepOwnEmailPasses` |
| Clients.NewClient | js/clients.js:208-209 | the pushed client has the given id, today's registration date and exactly the form's fields |
| Clients.MergeClient | js/clients.js:201-204 | the edited client keeps its id and registration date and takes every other field from the form |
| Clients.AddClientKeepsEmailsDistinct | js/clients.js:190-210 | a client added after the email check passed keeps emails pairwise distinct |
| Clients.EditClientKeepsEmailsDistinct | js/clients.js:190-205 | a client edited after the email check passed keeps emails distinct, given unique ids |
| Clients.KeepOwnEmailPasses | js/clients.js:190-192 | editing a client without changing their email passes the check |
| Clients.EmailCheckIsCaseSensitive | js/clients.js:190-192 | an email differing only in letter case is not taken |
| Rooms.NormaliseEquipment | js/salles.js:145 | an empty equipment field is stored as none, any other text as it is |
| Rooms.NewRoom | js/salles.js:155-156 | the pushed room has the given id, the form's number, capacity and type, and the form's equipment normalised: none exactly when the field was empty, otherwise its text |
| Rooms.MergeRoom | js/salles.js:150-151 | the edited room keeps its id and takes the form's number, capacity, type and normalised equipment (none exactly when the field was empty) |
| Rooms.RoomInUse | js/salles.js:108-111 | the delete guard: some session takes place in the room |
| Rooms.RoomEditCanOverbook | js/salles.js:148-152 | lowering a room from 100 to 50 seats under 60 booked seats passes and leaves the session overbooked |
| Films.NewFilm | js/films.js:148-149 | the pushed film has the given id and exactly the form's fields |
| Films.MergeFilm | js/films.js:143-144 | the edited film keeps its id and takes every other field from the form |
| Films.DeleteFilmOrphansItsSessions | js/films.js:107-109 | after deleting a film, its sessions name a missing film, and every other film id is present exactly as before |
| Pagination.PageCount | js/films.js:76-82 | the page count is the fewest pages of five that hold the rows (the ceiling), 0 exactly for no rows |
| Pagination.LastPage | js/films.js:76-82 | the last reachable page is the page count, or 1 when the list fits on one page or is empty: at least 1, at least the page count, and one of the two |
| Pagination.PageWindow | js/films.js:22-24 | a page shows at most five rows: the rows from (page-1)*5 on, in order, clamped to the end of the list; it is full before the last page and non-empty exactly up to the page count |
| Pagination.RowOnItsPage | js/reservations.js:96-98 | every row is shown on page i/5+1 at position i%5, and on no other page unless the row is repeated in the list |
| Pagination.Pager.constructor | js/films.js:12 | a table starts on page 1 |
| Pagination.Pager.PreviousPage | js/films.js:69-74 | one page back unless on page 1, staying in range |
| Pagination.Pager.NextPage | js/films.js:76-82 | one page on only while before the page count, staying in range |
| Pagination.Pager.ShowFirstPage | js/films.js:64 | a new search shows page 1 |
| Pagination.Pager.AdjustAfterDelete | js/salles.js:120-124 | the page goes back one exactly when it is past the page count and above 1; a page at most one past the last ends in range |
| Dashboard.ChartLabel | js/dashboard.js:30 | the duration chart's label of a title; its shape is stated by `ChartLabelShape` |
| Dashboard.ChartLabelShape | js/dashboard.js:30 | a title of at most 15 characters is its own label; a longer one gives 18 characters, its first 15 then "..."; long titles sharing their first 15 characters share a label |
| Dashboard.TotalIncrement | js/dashboard.js:64 | raising one count by one raises their sum by one |
| Dashboard.CountGenre | js/dashboard.js:62-65 | the number of films of a genre, at most the number of films; positive exactly when some film has it (`CountGenrePositive`) |
| Dashboard.CountGenreStep | js/dashboard.js:63-65 | one more film adds one to its own genre's count and nothing to any other |
| Dashboard.TallySeenGenre | js/dashboard.js:64 | a film of a genre already listed keeps the tally right by raising that genre's count |
| Dashboard.TallyNewGenre | js/dashboard.js:64 | a film of a new genre keeps the tally right by listing the genre with a count of one |
| Dashboard.CountGenrePositive | js/dashboard.js:62-65 | a genre is counted exactly when some film has it |
| Dashboard.CountGenres | js/dashboard.js:62-68 | each film's genre is listed once, its count is its number of films and at least 1, and the counts add up to the number of films |
| Dashboard.SelectSessions | js/dashboard.js:106 | the sessions picked are exactly those of the list that are in the room (or of the film) |
| Dashboard.SeatsOnSessions | js/dashboard.js:107-110 | the per-session `reduce`: the seats of all reservations, in any status, of each chosen session; `SeatsOnSelectedSessions` relates it to the bookings |
| Dashboard.SeatsSelectedFirstSession | js/dashboard.js:107-110 | with its id unique, a first session's seats split off the per-booking sum |
| Dashboard.SeatsOnSelectedSessions | js/dashboard.js:106-110 | with unique session ids, the per-session sum of seats equals the per-booking sum, so each booking is counted once |
| Dashboard.RoomLoadOf | js/dashboard.js:105-117 | one room's slice; its figures are stated by `RoomLoadCountsItsBookings` |
| Dashboard.RoomLoadCountsItsBookings | js/dashboard.js:105-117 | a room's occupancy is the seats of every booking in any status on its sessions, and its capacity figure is its capacity times its number of sessions |
| Dashboard.RoomLoads | js/dashboard.js:105-117 | one slice per room, in the rooms' order |
| Dashboard.PopularityOf | js/dashboard.js:200-210 | one film's bar; its figure is stated by `PopularityCountsItsBookings` |
| Dashboard.PopularityCountsItsBookings | js/dashboard.js:200-210 | a film's figure is its title with the seats of every booking on its sessions |
| Dashboard.Insert | js/dashboard.js:211 | inserting adds exactly that entry |
| Dashboard.InsertKeepsDescending | js/dashboard.js:211 | inserting into a list in non-increasing order of seats keeps that order |
| Dashboard.SortBySeats | js/dashboard.js:211 | the sort is a permutation in non-increasing order of seats |
| Dashboard.Popularities | js/dashboard.js:200-210 | one figure per film, in the films' order |
| Dashboard.TopFilms | js/dashboard.js:200-211 | the top-films chart: the films' figures sorted by seats, first five; stated by `TopFilmsAreTheMostBooked` |
| Dashboard.TopFilmsAreTheMostBooked | js/dashboard.js:200-211 | the chart has five films (all of them when fewer), in non-increasing order of seats, each one a film's figure, and no film left out has more seats than a film shown |
| BookingLedger.Ledger.constructor | js/dashboard.js:2-6 | the ledger holds the lists as loaded |
| BookingLedger.RemoveUnbookedSessionKeepsConsistent | js/seances.js:175-182 | deleting a session no booking names keeps ids unique, no room booked twice at one date and time, emails distinct and bookings on existing sessions |
| BookingLedger.RemoveReservationKeepsConsistent | js/reservations.js:265-267 | deleting a booking keeps the ledger consistent |
| BookingLedger.AddReservationKeepsConsistent | js/reservations.js:330-333 | pushing a booking for an existing session with the next id keeps the ledger consistent |
| BookingLedger.EditReservationKeepsConsistent | js/reservations.js:322-328 | overwriting a booking so that it names an existing session keeps the ledger consistent |
| BookingLedger.AddSessionKeepsConsistent | js/seances.js:216-237 | a session pushed after the conflict check passed keeps the ledger consistent |
| BookingLedger.EditSessionKeepsConsistent | js/seances.js:216-232 | a session edited after the conflict check passed keeps the ledger consistent |
| BookingLedger.Ledger.SubmitFilm | js/films.js:131-157 | adds a film with the next id, or overwrites all fields but the id of the edited film (no change when it is missing); keeps the invariants |
| BookingLedger.Ledger.SubmitRoom | js/salles.js:138-164 | the same for rooms, with equipment normalised; adding keeps every session within capacity, editing is not claimed to |
| BookingLedger.Ledger.SubmitSession | js/seances.js:204-244 | refused with no change exactly when another session holds the room, date and time; otherwise adds or edits as above; keeps the invariants, and capacity when adding |
| BookingLedger.Ledger.SubmitClient | js/clients.js:177-217 | refused exactly when another client has the same email, then NotFound for a missing edited client; otherwise adds, or edits keeping id and registration date; keeps the invariants |
| BookingLedger.Ledger.SubmitReservation | js/reservations.js:291-340 | NotFound for a missing session; otherwise refused exactly when the other non-cancelled seats plus the seats asked for exceed capacity; then NotFound for a missing edited booking; otherwise adds, or edits keeping id and booking date; the saved session is within capacity (for an edit, from a consistent ledger) and the invariants and capacity are kept |
| BookingLedger.Ledger.DeleteFilm | js/films.js:107-122 | after confirmation, removes exactly the films with the id, with no guard, and moves the page back when needed |
| BookingLedger.Ledger.DeleteRoom | js/salles.js:105-129 | after confirmation, refused while a session uses the room, otherwise removes it; keeps the invariants and capacity |
| BookingLedger.Ledger.DeleteSession | js/seances.js:172-195 | after confirmation, refused while any booking names the session, otherwise removes it; keeps the invariants and capacity |
| BookingLedger.Ledger.DeleteClient | js/clients.js:145-168 | after confirmation, refused exactly when the client has a booking in any status, otherwise removes them; keeps the invariants |
| BookingLedger.Ledger.DeleteReservation | js/reservations.js:265-280 | after confirmation, removes the booking with no guard; keeps the invariants and capacity |

## Left out

- **Storage.** Loading and saving through `localStorage`/`sessionStorage`,
  with `JSON.parse` and the seed data, is I/O. Each page keeps its own copy
  of the lists; the model uses one shared `Ledger` instead.
- **Presentation.** DOM rendering, modals, `alert`, the `t` translation
  lookup and the language switch are left out. So are the Chart.js calls and
  the hard-coded monthly chart.
- **Other pages and exports.** The login page and its route guard, and the
  CSV and PDF exports, are not part of this model.
- **Floating point.** Prices are integer cents, so `parseFloat`, `toFixed`
  and the seat percentage of the sessions page are not modelled.
- **The clock.** `new Date()`, `toISOString` and the time-zone effects of
  parsing `"YYYY-MM-DD"` are replaced by a `today` parameter. `Clients.Age`
  takes dates already split into year, month and day; parsing the birth
  date string is not modelled.
- **Today's bookings.** The `todayReservations` figure of `updateStats`
  compares booking dates with the clock and is not modelled.
- **Search filters.** Their Unicode `toLowerCase`/`includes` matching is not
  modelled. Their only effect on the ledger is the row count `n` that the
  `Pager` methods receive, and `Pager.ShowFirstPage`.
- **`parseInt` returning NaN or a non-positive number.** The numeric form
  fields are assumed to be positive, and are positive by type.
- **Unused calls.** The reservation submit handler calls
  `getAvailableSeats` at js/reservations.js:303 and ignores the result.
- **UI state.** `editingId` belongs to the page. It is a parameter of the
  submit methods, and `closeModal` resetting it is not modelled.
- Dashboard.CountGenres: does not state that genres are listed in the order
  of their first film. It also does not model the JavaScript rule that lists
  integer-like object keys first. It assumes that no genre is named like a
  member of `Object.prototype`. The code counts into a plain `{}`. For
  `"constructor"` or `"toString"`, `(genreCounts[g] || 0) + 1` yields a string,
  not a count. For `"__proto__"` the assignment is dropped and the genre never
  appears. The model counts every genre, these included, as an ordinary
  key.
- Dashboard.SortBySeats: does not state that the sort is stable (films with
  equal seats keep their order), though the insertion it uses is.
- Dashboard.ChartLabelShape: counts characters, where JavaScript's `length`
  and `substring` count UTF-16 code units.
- Dashboard.SeatsOnSelectedSessions: the per-booking reading holds only with
  unique session ids. With a repeated session id, the chart counts a
  booking once per copy.
- BookingLedger.Ledger.SubmitRoom: editing a room is not claimed to keep
  sessions within capacity, because it re-checks nothing
  (`Rooms.RoomEditCanOverbook`).
- BookingLedger.Ledger.SubmitSession: editing a session is not claimed to
  keep sessions within capacity, for the same reason
  (`Reservations.SessionEditCanOverbook`).

=== FILE: clients.dfy ===
/**
 * The rules of the clients page: the reservation count shown per client
 * (which also guards the delete), the age column and the email uniqueness
 * check of the submit handler.
 */
module Clients {
  import opened Records
  import opened Collections

  /** `getReservationCount`: the reservations of the client, whatever their status. */
  function ReservationCount(rs: seq<Reservation>, clientId: Id): (n: nat)
    ensures n <= |rs|
  {
    if rs == [] then 0
    else (if rs[0].clientId == clientId then 1 else 0) + ReservationCount(rs[1..], clientId)
  }

  predicate HasBookings(rs: seq<Reservation>, clientId: Id)
  {
    exists i :: 0 <= i < |rs| && rs[i].clientId == clientId
  }

  /** The count is zero exactly when no reservation names the client, so it is a sound delete guard. */
  lemma {:induction false} ReservationCountZero(rs: seq<Reservation>, clientId: Id)
    ensures ReservationCount(rs, clientId) == 0 <==> !HasBookings(rs, clientId)
  {
    if rs != [] {
      ReservationCountZero(rs[1..], clientId);
      if HasBookings(rs[1..], clientId) {
        var k :| 0 <= k < |rs| - 1 && rs[1..][k].clientId == clientId;
        assert rs[k + 1].clientId == clientId;
      }
      if HasBookings(rs, clientId) && rs[0].clientId != clientId {
        var k :| 0 <= k < |rs| && rs[k].clientId == clientId;
        assert rs[1..][k - 1].clientId == clientId;
      }
    }
  }

  /** Counting the reservations of everyone gives each reservation to exactly one client. */
  lemma {:induction false} ReservationCountAppend(rs: seq<Reservation>, r: Reservation, clientId: Id)
    ensures ReservationCount(rs + [r], clientId)
         == ReservationCount(rs, clientId) + (if r.clientId == clientId then 1 else 0)
  {
    if rs == [] {
      assert [] + [r] == [r];
    } else {
      assert (rs + [r])[1..] == rs[1..] + [r];
      ReservationCountAppend(rs[1..], r, clientId);
    }
  }

  /** A calendar date as the year, month (1-12) and day the browser reads from it. */
  datatype Date = Date(year: int, month: int, day: int)

  /** `a` is on or before `b`. */
  predicate OnOrBefore(a: Date, b: Date)
  {
    a.year < b.year
    || (a.year == b.year && (a.month < b.month || (a.month == b.month && a.day <= b.day)))
  }

  /** The `years`-th anniversary of `birth` falls on or before `today`. */
  predicate AnniversaryReached(birth: Date, today: Date, years: int)
  {
    OnOrBefore(Date(birth.year + years, birth.month, birth.day), today)
  }

  /**
   * `calculateAge`: the difference of the years, less one when today's
   * month and day come before the birthday's.
   */
  function Age(birth: Date, today: Date): int
  {
    var age := today.year - birth.year;
    if today.month < birth.month || (today.month == birth.month && today.day < birth.day) then age - 1 else age
  }

  /**
   * The age is the number of anniversaries reached: exactly the year counts
   * up to it have their anniversary on or before today. Someone born on or
   * before today has a non-negative age.
   */
  lemma AgeCountsAnniversaries(birth: Date, today: Date)
    ensures forall n: int {:trigger AnniversaryReached(birth, today, n)} ::
      AnniversaryReached(birth, today, n) <==> n <= Age(birth, today)
    ensures OnOrBefore(birth, today) ==> Age(birth, today) >= 0
  {
    forall n: int ensures AnniversaryReached(birth, today, n) <==> n <= Age(birth, today) {
    }
  }

  /** The email check of the submit handler: a client other than the edited one already has `email`. */
  predicate EmailTaken(cs: seq<Client>, editingId: Option<Id>, email: string)
  {
    exists i :: 0 <= i < |cs| && IsOther(cs[i].id, editingId) && cs[i].email == email
  }

  predicate DifferentEmails(a: Client, b: Client) { a.email != b.email }

  /** No two clients share an email. */
  predicate EmailsDistinct(cs: seq<Client>) { Pairwise(cs, DifferentEmails) }

  /** The record the submit handler pushes, registered `today`. */
  function NewClient(id: Id, f: ClientForm, today: string): (c: Client)
    ensures c.id == id && c.registrationDate == today && ClientFormOf(c) == f
  {
    Client(id, f.firstName, f.lastName, f.email, f.phone, f.birthDate, today)
  }

  /** `{ ...clients[index], ...formData }` with the original registration date put back. */
  function MergeClient(c: Client, f: ClientForm): (m: Client)
    ensures m.id == c.id && m.registrationDate == c.registrationDate
    ensures ClientFormOf(m) == f
  {
    c.(firstName := f.firstName, lastName := f.lastName, email := f.email, phone := f.phone, birthDate := f.birthDate)
  }

  /** The fields of a client that the client form edits. */
  function ClientFormOf(c: Client): ClientForm
  {
    ClientForm(c.firstName, c.lastName, c.email, c.phone, c.birthDate)
  }

  /** A client pushed after the email check passed keeps the emails distinct. */
  lemma AddClientKeepsEmailsDistinct(cs: seq<Client>, f: ClientForm, today: string)
    requires EmailsDistinct(cs)
    requires !EmailTaken(cs, None, f.email)
    ensures EmailsDistinct(cs + [NewClient(NextId(cs, ClientId), f, today)])
  {
    var ys := cs + [NewClient(NextId(cs, ClientId), f, today)];
    forall i, j | 0 <= i < j < |ys| ensures DifferentEmails(ys[i], ys[j]) {
      assert ys[i] == cs[i];
      if j < |cs| {
        assert ys[j] == cs[j];
      }
    }
  }

  /** An edited client that passed the email check keeps the emails distinct, given unique client ids. */
  lemma EditClientKeepsEmailsDistinct(cs: seq<Client>, i: nat, f: ClientForm)
    requires EmailsDistinct(cs) && UniqueIds(cs, ClientId)
    requires i < |cs|
    requires !EmailTaken(cs, Some(cs[i].id), f.email)
    ensures EmailsDistinct(cs[i := MergeClient(cs[i], f)])
  {
    var ys := cs[i := MergeClient(cs[i], f)];
    forall a, b | 0 <= a < b < |ys| ensures DifferentEmails(ys[a], ys[b]) {
      if a == i {
        assert cs[b].id != cs[i].id;
      } else if b == i {
        assert cs[a].id != cs[i].id;
      }
    }
  }

  /** Keeping one's own email on an edit passes the check. */
  lemma KeepOwnEmailPasses(cs: seq<Client>, i: nat, f: ClientForm)
    requires EmailsDistinct(cs) && UniqueIds(cs, ClientId)
    requires i < |cs| && f.email == cs[i].email
    ensures !EmailTaken(cs, Some(cs[i].id), f.email)
  {
    forall j | 0 <= j < |cs| && IsOther(cs[j].id, Some(cs[i].id)) ensures cs[j].email != f.email {
      if j < i {
        assert DifferentEmails(cs[j], cs[i]);
      } else {
        assert DifferentEmails(cs[i], cs[j]);
      }
    }
  }

  /** The check compares emails exactly: one differing only in letter case is not taken. */
  lemma EmailCheckIsCaseSensitive()
    ensures !EmailTaken([Client(1, "Marie", "Dupont", "marie@mail.fr", "0600000000", "1990-05-12", "2024-01-01")],
                        None, "Marie@mail.fr")
  {
    assert "marie@mail.fr"[0] != "Marie@mail.fr"[0];
  }
}

=== FILE: collections.dfy ===
/**
 * The list operations every page applies to its array of records, each
 * written once over a record type `T` and its id selector `key`:
 * `find`, `findIndex`, `filter(x => x.id !== id)` and the id assignment
 * "largest id + 1, or 1 when the list is empty".
 */
module Collections {
  import opened Records

  predicate HasId<T>(xs: seq<T>, key: T -> Id, id: Id)
  {
    exists i :: 0 <= i < |xs| && key(xs[i]) == id
  }

  predicate UniqueIds<T>(xs: seq<T>, key: T -> Id)
  {
    forall i, j :: 0 <= i < j < |xs| ==> key(xs[i]) != key(xs[j])
  }

  /** Every two records, the earlier one first, are `apart`. */
  predicate Pairwise<T>(xs: seq<T>, apart: (T, T) -> bool)
  {
    forall i, j :: 0 <= i < j < |xs| ==> apart(xs[i], xs[j])
  }

  /** `Math.max(...xs.map(x => x.id))` on a non-empty list. */
  function MaxId<T>(xs: seq<T>, key: T -> Id): (m: Id)
    requires |xs| > 0
    ensures HasId(xs, key, m)
    ensures forall i :: 0 <= i < |xs| ==> key(xs[i]) <= m
  {
    if |xs| == 1 then key(xs[0])
    else
      var rest := MaxId(xs[1..], key);
      var i :| 0 <= i < |xs| - 1 && key(xs[1..][i]) == rest;
      assert key(xs[i + 1]) == rest;
      if key(xs[0]) >= rest then key(xs[0]) else rest
  }

  /** The id a new record gets: the largest id plus one, or 1 for an empty list. */
  function NextId<T>(xs: seq<T>, key: T -> Id): (n: Id)
    ensures forall i :: 0 <= i < |xs| ==> key(xs[i]) < n
    ensures |xs| == 0 ==> n == 1
    ensures |xs| > 0 ==> n >= 2 && HasId(xs, key, n - 1)
  {
    if |xs| > 0 then MaxId(xs, key) + 1 else 1
  }

  /** `xs.findIndex(x => x.id === id)`, with `None` for -1. */
  function FindIndex<T>(xs: seq<T>, key: T -> Id, id: Id): (r: Option<nat>)
    ensures r.Some? ==> r.value < |xs| && key(xs[r.value]) == id
    ensures r.Some? ==> forall j :: 0 <= j < r.value ==> key(xs[j]) != id
    ensures r.None? <==> !HasId(xs, key, id)
  {
    if xs == [] then None
    else if key(xs[0]) == id then Some(0)
    else
      match FindIndex(xs[1..], key, id)
      case None =>
        assert forall i :: 1 <= i < |xs| ==> xs[i] == xs[1..][i - 1];
        None
      case Some(k) => Some(k + 1)
  }

  /** `xs.find(x => x.id === id)`, with `None` for `undefined`. */
  function Find<T>(xs: seq<T>, key: T -> Id, id: Id): (r: Option<T>)
    ensures r.None? <==> !HasId(xs, key, id)
    ensures r.Some? ==> r.value in xs && key(r.value) == id
    ensures r.Some? ==> FindIndex(xs, key, id).Some? && r.value == xs[FindIndex(xs, key, id).value]
    ensures forall i :: 0 <= i < |xs| && key(xs[i]) == id && UniqueIds(xs, key) ==> r == Some(xs[i])
  {
    if xs == [] then None
    else if key(xs[0]) == id then Some(xs[0])
    else
      var r := Find(xs[1..], key, id);
      assert forall i :: 1 <= i < |xs| ==> xs[i] == xs[1..][i - 1];
      r
  }

  /** `xs.filter(x => x.id !== id)`: the delete of every page. */
  function Remove<T>(xs: seq<T>, key: T -> Id, id: Id): (r: seq<T>)
    ensures |r| <= |xs|
    ensures forall k :: 0 <= k < |r| ==> r[k] in xs && key(r[k]) != id
    ensures forall k :: 0 <= k < |xs| && key(xs[k]) != id ==> xs[k] in r
  {
    if xs == [] then []
    else (if key(xs[0]) != id then [xs[0]] else []) + Remove(xs[1..], key, id)
  }

  /** Removing keeps the survivors in their order: it distributes over concatenation. */
  lemma {:induction false} RemoveKeepsOrder<T>(a: seq<T>, b: seq<T>, key: T -> Id, id: Id)
    ensures Remove(a + b, key, id) == Remove(a, key, id) + Remove(b, key, id)
  {
    if a == [] {
      assert a + b == b;
    } else {
      assert (a + b)[1..] == a[1..] + b;
      RemoveKeepsOrder(a[1..], b, key, id);
    }
  }

  /** Removing an id nobody has changes nothing. */
  lemma {:induction false} RemoveAbsent<T>(xs: seq<T>, key: T -> Id, id: Id)
    requires !HasId(xs, key, id)
    ensures Remove(xs, key, id) == xs
  {
    if xs != [] {
      assert key(xs[0]) != id;
      assert !HasId(xs[1..], key, id) by {
        forall i | 0 <= i < |xs| - 1 ensures key(xs[1..][i]) != id {
          assert xs[1..][i] == xs[i + 1];
        }
      }
      RemoveAbsent(xs[1..], key, id);
      assert [xs[0]] + xs[1..] == xs;
    }
  }

  /** A list whose records are pairwise `apart` stays so when some are removed. */
  lemma {:induction false} RemoveKeepsPairwise<T>(xs: seq<T>, key: T -> Id, id: Id, apart: (T, T) -> bool)
    requires Pairwise(xs, apart)
    ensures Pairwise(Remove(xs, key, id), apart)
  {
    if xs != [] {
      assert Pairwise(xs[1..], apart) by {
        forall i, j | 0 <= i < j < |xs| - 1 ensures apart(xs[1..][i], xs[1..][j]) {
          assert xs[1..][i] == xs[i + 1] && xs[1..][j] == xs[j + 1];
        }
      }
      RemoveKeepsPairwise(xs[1..], key, id, apart);
      var rest := Remove(xs[1..], key, id);
      if key(xs[0]) != id {
        var r := [xs[0]] + rest;
        forall i, j | 0 <= i < j < |r| ensures apart(r[i], r[j]) {
          if i == 0 {
            assert r[j] in xs[1..];
            var k :| 0 <= k < |xs| - 1 && xs[1..][k] == r[j];
            assert apart(xs[0], xs[k + 1]);
          } else {
            assert r[i] == rest[i - 1] && r[j] == rest[j - 1];
          }
        }
      }
    }
  }

  /** Ids that were unique stay unique when records are removed. */
  lemma {:induction false} RemoveKeepsUniqueIds<T>(xs: seq<T>, key: T -> Id, id: Id)
    requires UniqueIds(xs, key)
    ensures UniqueIds(Remove(xs, key, id), key)
  {
    if xs != [] {
      assert UniqueIds(xs[1..], key) by {
        forall i, j | 0 <= i < j < |xs| - 1 ensures key(xs[1..][i]) != key(xs[1..][j]) {
          assert xs[1..][i] == xs[i + 1] && xs[1..][j] == xs[j + 1];
        }
      }
      RemoveKeepsUniqueIds(xs[1..], key, id);
      var rest := Remove(xs[1..], key, id);
      if key(xs[0]) != id {
        var r := [xs[0]] + rest;
        forall i, j | 0 <= i < j < |r| ensures key(r[i]) != key(r[j]) {
          if i == 0 {
            assert r[j] in xs[1..];
            var k :| 0 <= k < |xs| - 1 && xs[1..][k] == r[j];
            assert key(xs[0]) != key(xs[k + 1]);
          } else {
            assert r[i] == rest[i - 1] && r[j] == rest[j - 1];
          }
        }
      }
    }
  }

  /** Removing one id does not change what a search for another id finds. */
  lemma {:induction false} FindAfterRemove<T>(xs: seq<T>, key: T -> Id, id: Id, other: Id)
    requires other != id
    ensures Find(Remove(xs, key, id), key, other) == Find(xs, key, other)
  {
    if xs != [] {
      FindAfterRemove(xs[1..], key, id, other);
      var rest := Remove(xs[1..], key, id);
      if key(xs[0]) != id {
        var r := [xs[0]] + rest;
        assert r[0] == xs[0] && r[1..] == rest;
        assert Remove(xs, key, id) == r;
      } else {
        assert Remove(xs, key, id) == rest;
      }
    }
  }

  /** A record pushed with the next id keeps ids unique. */
  lemma AppendNextIdKeepsUniqueIds<T>(xs: seq<T>, key: T -> Id, x: T)
    requires UniqueIds(xs, key)
    requires key(x) == NextId(xs, key)
    ensures UniqueIds(xs + [x], key)
  {
    var ys := xs + [x];
    forall i, j | 0 <= i < j < |ys| ensures key(ys[i]) != key(ys[j]) {
      assert ys[i] == xs[i];
      if j == |xs| {
        assert key(xs[i]) < NextId(xs, key);
      } else {
        assert ys[j] == xs[j];
      }
    }
  }

  /** A record replaced by one with the same id keeps ids unique. */
  lemma UpdateSameIdKeepsUniqueIds<T>(xs: seq<T>, key: T -> Id, i: nat, x: T)
    requires UniqueIds(xs, key)
    requires i < |xs| && key(x) == key(xs[i])
    ensures UniqueIds(xs[i := x], key)
  {
  }

  /**
   * The id of a deleted record can be handed out again: once the record with
   * the largest id is gone, the next id is at most that id.
   */
  lemma NextIdReusesDeletedMax<T>(xs: seq<T>, key: T -> Id)
    requires |xs| > 0
    ensures NextId(Remove(xs, key, MaxId(xs, key)), key) <= MaxId(xs, key)
  {
    var m := MaxId(xs, key);
    var r := Remove(xs, key, m);
    if |r| > 0 {
      var i :| 0 <= i < |r| && key(r[i]) == NextId(r, key) - 1;
      assert r[i] in r;
    }
  }
  /** With films 1, 2 and 3, deleting film 3 and adding a film hands out id 3 again. */
  lemma DeletedMaxIdIsReused()
    ensures var fs := [Film(1, "A", "Drame", 90, "2024-01-01"), Film(2, "B", "Drame", 90, "2024-01-01"),
                       Film(3, "C", "Drame", 90, "2024-01-01")];
            NextId(Remove(fs, FilmId, 3), FilmId) == 3
  {
    var fs := [Film(1, "A", "Drame", 90, "2024-01-01"), Film(2, "B", "Drame", 90, "2024-01-01"),
               Film(3, "C", "Drame", 90, "2024-01-01")];
    assert Remove(fs, FilmId, 3) == fs[..2] by {
      assert fs[1..][1..][1..] == [];
    }
    assert MaxId(fs[..2], FilmId) == 2 by {
      assert fs[..2][1..] == [fs[1]];
    }
  }

  /** Removing one id keeps every other id present exactly when it was. */
  lemma RemoveKeepsOtherIds<T>(xs: seq<T>, key: T -> Id, id: Id, other: Id)
    requires other != id
    ensures HasId(Remove(xs, key, id), key, other) <==> HasId(xs, key, other)
  {
    FindAfterRemove(xs, key, id, other);
  }

  /** A pushed record is found only when no earlier record has its id. */
  lemma {:induction false} FindAppend<T>(xs: seq<T>, key: T -> Id, x: T, id: Id)
    ensures Find(xs + [x], key, id)
         == if HasId(xs, key, id) then Find(xs, key, id) else if key(x) == id then Some(x) else None
  {
    if xs == [] {
      assert [] + [x] == [x];
    } else {
      assert (xs + [x])[1..] == xs[1..] + [x];
      FindAppend(xs[1..], key, x, id);
      if key(xs[0]) != id {
        assert HasId(xs, key, id) == HasId(xs[1..], key, id);
      }
    }
  }
}

=== FILE: dashboard.dfy ===
/**
 * The figures the dashboard charts: the chart label of a film title, the
 * number of films per genre, the seats booked per room and per film, and
 * the five most booked films.
 */
module Dashboard {
  import opened Records
  import opened Collections
  import opened Sessions

  /** Titles longer than this are cut on the duration chart. */
  const LABEL_LENGTH: nat := 15

  /** The label of a film on the duration chart: the title, cut to 15 characters plus "..." when longer. */
  function ChartLabel(title: string): string
  {
    if |title| > LABEL_LENGTH then title[..LABEL_LENGTH] + "..." else title
  }

  /**
   * A title of at most 15 characters is its own label. A longer one is cut
   * to its first 15 characters followed by "...", 18 in all. Two long
   * titles that share their first 15 characters get the same label.
   */
  lemma ChartLabelShape(title: string, other: string)
    ensures |title| <= LABEL_LENGTH ==> ChartLabel(title) == title
    ensures |title| > LABEL_LENGTH ==>
      && |ChartLabel(title)| == LABEL_LENGTH + 3
      && title[..LABEL_LENGTH] <= ChartLabel(title)
      && ChartLabel(title)[LABEL_LENGTH..] == "..."
    ensures |title| > LABEL_LENGTH && |other| > LABEL_LENGTH && title[..LABEL_LENGTH] == other[..LABEL_LENGTH]
        ==> ChartLabel(title) == ChartLabel(other)
  {
  }

  /** The number of films of genre `g`. */
  function CountGenre(films: seq<Film>, g: string): (n: nat)
    ensures n <= |films|
  {
    if films == [] then 0
    else CountGenre(films[..|films| - 1], g) + (if films[|films| - 1].genre == g then 1 else 0)
  }

  /** The sum of a list of counts. */
  function Total(counts: seq<nat>): nat
  {
    if counts == [] then 0 else Total(counts[..|counts| - 1]) + counts[|counts| - 1]
  }

  lemma {:induction false} TotalIncrement(counts: seq<nat>, j: nat)
    requires j < |counts|
    ensures Total(counts[j := counts[j] + 1]) == Total(counts) + 1
  {
    var last := |counts| - 1;
    if j < last {
      assert counts[j := counts[j] + 1][..last] == counts[..last][j := counts[j] + 1];
      TotalIncrement(counts[..last], j);
    } else {
      assert counts[j := counts[j] + 1][..last] == counts[..last];
    }
  }

  /** A genre is counted exactly when some film has it. */
  lemma {:induction false} CountGenrePositive(films: seq<Film>, g: string)
    ensures CountGenre(films, g) > 0 <==> exists i :: 0 <= i < |films| && films[i].genre == g
  {
    if films != [] {
      var last := |films| - 1;
      CountGenrePositive(films[..last], g);
      if exists i :: 0 <= i < last && films[..last][i].genre == g {
        var i :| 0 <= i < last && films[..last][i].genre == g;
        assert films[i].genre == g;
      }
      if exists i :: 0 <= i < |films| && films[i].genre == g {
        var i :| 0 <= i < |films| && films[i].genre == g;
        if i < last {
          assert films[..last][i].genre == g;
        }
      }
    }
  }

  /**
   * `genres` and `counts` are a genre count of `fs`: each genre of a film is
   * listed once, with its number of films, and the counts add up to the
   * number of films.
   */
  ghost predicate Tally(fs: seq<Film>, genres: seq<string>, counts: seq<nat>)
  {
    && |genres| == |counts|
    && (forall a, b :: 0 <= a < b < |genres| ==> genres[a] != genres[b])
    && (forall j :: 0 <= j < |fs| ==> fs[j].genre in genres)
    && (forall k :: 0 <= k < |genres| ==> counts[k] == CountGenre(fs, genres[k]) && counts[k] >= 1)
    && Total(counts) == |fs|
  }

  /** One more film adds one to the count of its own genre and nothing to any other. */
  lemma CountGenreStep(films: seq<Film>, i: nat, g: string)
    requires i < |films|
    ensures CountGenre(films[..i + 1], g) == CountGenre(films[..i], g) + (if films[i].genre == g then 1 else 0)
  {
    assert films[..i + 1][..i] == films[..i];
  }

  /** A film of a genre already listed raises that genre's count by one. */
  lemma TallySeenGenre(films: seq<Film>, i: nat, genres: seq<string>, counts: seq<nat>, j: nat)
    requires i < |films| && Tally(films[..i], genres, counts)
    requires j < |genres| && genres[j] == films[i].genre
    ensures Tally(films[..i + 1], genres, counts[j := counts[j] + 1])
  {
    forall h ensures CountGenre(films[..i + 1], h) == CountGenre(films[..i], h) + (if films[i].genre == h then 1 else 0) {
      CountGenreStep(films, i, h);
    }
    TotalIncrement(counts, j);
  }

  /** A film of a genre not yet listed appends that genre with a count of one. */
  lemma TallyNewGenre(films: seq<Film>, i: nat, genres: seq<string>, counts: seq<nat>)
    requires i < |films| && Tally(films[..i], genres, counts)
    requires films[i].genre !in genres
    ensures Tally(films[..i + 1], genres + [films[i].genre], counts + [1])
  {
    var g := films[i].genre;
    forall h ensures CountGenre(films[..i + 1], h) == CountGenre(films[..i], h) + (if g == h then 1 else 0) {
      CountGenreStep(films, i, h);
    }
    CountGenrePositive(films[..i], g);
    assert (counts + [1])[..|counts|] == counts;
  }

  /**
   * The genre count of the genre chart: the `forEach` that fills the
   * `genreCounts` dictionary, read back as its keys (in first-appearance
   * order) and its values. Every genre of a film is listed once, with the
   * number of its films, and the counts add up to the number of films.
   */
  method CountGenres(films: seq<Film>) returns (genres: seq<string>, counts: seq<nat>)
    ensures |genres| == |counts|
    ensures forall a, b :: 0 <= a < b < |genres| ==> genres[a] != genres[b]
    ensures forall i :: 0 <= i < |films| ==> films[i].genre in genres
    ensures forall k :: 0 <= k < |genres| ==> counts[k] == CountGenre(films, genres[k]) && counts[k] >= 1
    ensures Total(counts) == |films|
  {
    genres, counts := [], [];
    var i := 0;
    while i < |films|
      invariant 0 <= i <= |films|
      invariant Tally(films[..i], genres, counts)
    {
      var g := films[i].genre;
      var j := 0;
      while j < |genres| && genres[j] != g
        invariant 0 <= j <= |genres|
        invariant forall k :: 0 <= k < j ==> genres[k] != g
      {
        j := j + 1;
      }
      if j < |genres| {
        TallySeenGenre(films, i, genres, counts, j);
        counts := counts[j := counts[j] + 1];
      } else {
        TallyNewGenre(films, i, genres, counts);
        genres, counts := genres + [g], counts + [1];
      }
      i := i + 1;
    }
    assert films[..i] == films;
  }

  /** Which sessions a chart adds up: those in a room, or those of a film. */
  datatype Selector = ByRoom(roomId: Id) | ByFilm(filmId: Id)

  predicate Selects(sel: Selector, s: Session)
  {
    match sel
    case ByRoom(roomId) => s.roomId == roomId
    case ByFilm(filmId) => s.filmId == filmId
  }

  /** `sessions.filter(s => s.roomId === room.id)` or `sessions.filter(s => s.filmId === film.id)`. */
  function SelectSessions(ss: seq<Session>, sel: Selector): (picked: seq<Session>)
    ensures |picked| <= |ss|
    ensures forall s :: s in picked <==> s in ss && Selects(sel, s)
  {
    if ss == [] then []
    else
      assert forall s :: s in ss <==> s == ss[0] || s in ss[1..];
      (if Selects(sel, ss[0]) then [ss[0]] else []) + SelectSessions(ss[1..], sel)
  }

  /** The `reduce` over the chosen sessions of the seats of all their reservations, cancelled ones included. */
  function SeatsOnSessions(rs: seq<Reservation>, picked: seq<Session>): nat
  {
    if picked == [] then 0 else AllSeats(rs, picked[0].id) + SeatsOnSessions(rs, picked[1..])
  }

  /**
   * The same figure counted from the reservations' side: the seats of every
   * reservation whose session is found and is one the selector chooses.
   */
  function SeatsSelected(rs: seq<Reservation>, ss: seq<Session>, sel: Selector): nat
  {
    if rs == [] then 0
    else
      var own := match Find(ss, SessionId, rs[0].sessionId)
        case Some(s) => if Selects(sel, s) then rs[0].seats else 0
        case None => 0;
      own + SeatsSelected(rs[1..], ss, sel)
  }

  /** Peeling off the first session of a list whose ids are unique moves its seats out of the sum. */
  lemma {:induction false} SeatsSelectedFirstSession(rs: seq<Reservation>, ss: seq<Session>, sel: Selector)
    requires |ss| > 0 && !HasId(ss[1..], SessionId, ss[0].id)
    ensures SeatsSelected(rs, ss, sel)
         == (if Selects(sel, ss[0]) then AllSeats(rs, ss[0].id) else 0) + SeatsSelected(rs, ss[1..], sel)
  {
    if rs != [] {
      SeatsSelectedFirstSession(rs[1..], ss, sel);
    }
  }

  /**
   * With unique session ids, the dashboard's per-session sum counts each
   * reservation of a chosen session exactly once.
   */
  lemma {:induction false} SeatsOnSelectedSessions(rs: seq<Reservation>, ss: seq<Session>, sel: Selector)
    requires UniqueIds(ss, SessionId)
    ensures SeatsOnSessions(rs, SelectSessions(ss, sel)) == SeatsSelected(rs, ss, sel)
  {
    if ss == [] {
      if rs != [] {
        SeatsOnSelectedSessions(rs[1..], ss, sel);
      }
    } else {
      assert UniqueIds(ss[1..], SessionId) by {
        forall a, b | 0 <= a < b < |ss| - 1 ensures ss[1..][a].id != ss[1..][b].id {
          assert ss[1..][a] == ss[a + 1] && ss[1..][b] == ss[b + 1];
        }
      }
      assert !HasId(ss[1..], SessionId, ss[0].id) by {
        forall k | 0 <= k < |ss| - 1 ensures ss[1..][k].id != ss[0].id {
          assert ss[1..][k] == ss[k + 1];
        }
      }
      SeatsOnSelectedSessions(rs, ss[1..], sel);
      SeatsSelectedFirstSession(rs, ss, sel);
      var rest := SelectSessions(ss[1..], sel);
      if Selects(sel, ss[0]) {
        assert ([ss[0]] + rest)[1..] == rest;
      } else {
        assert SelectSessions(ss, sel) == rest;
      }
    }
  }

  /** One slice of the room chart: the room's number, its booked seats and the seats of all its sessions. */
  datatype RoomLoad = RoomLoad(name: string, occupancy: nat, capacity: nat)

  /** The room-occupancy `map` of the room chart, for one room. */
  function RoomLoadOf(room: Room, ss: seq<Session>, rs: seq<Reservation>): RoomLoad
  {
    var inRoom := SelectSessions(ss, ByRoom(room.id));
    RoomLoad(room.number, SeatsOnSessions(rs, inRoom), room.capacity * |inRoom|)
  }

  /**
   * A room's slice: its occupancy is the seats of every reservation, in any
   * status, on a session in the room (each counted once when session ids
   * are unique), and its capacity is the room's capacity once per session
   * held there.
   */
  lemma RoomLoadCountsItsBookings(room: Room, ss: seq<Session>, rs: seq<Reservation>)
    requires UniqueIds(ss, SessionId)
    ensures RoomLoadOf(room, ss, rs).name == room.number
    ensures RoomLoadOf(room, ss, rs).occupancy == SeatsSelected(rs, ss, ByRoom(room.id))
    ensures RoomLoadOf(room, ss, rs).capacity == room.capacity * |SelectSessions(ss, ByRoom(room.id))|
  {
    SeatsOnSelectedSessions(rs, ss, ByRoom(room.id));
  }

  /** The room chart: one slice per room, in the rooms' order. */
  function RoomLoads(rooms: seq<Room>, ss: seq<Session>, rs: seq<Reservation>): (loads: seq<RoomLoad>)
    ensures |loads| == |rooms|
    ensures forall k :: 0 <= k < |rooms| ==> loads[k] == RoomLoadOf(rooms[k], ss, rs)
  {
    seq(|rooms|, k requires 0 <= k < |rooms| => RoomLoadOf(rooms[k], ss, rs))
  }

  /** One bar of the top-films chart. */
  datatype Popularity = Popularity(title: string, seats: nat)

  /** The popularity `map` of the top-films chart, for one film: the seats booked on its sessions. */
  function PopularityOf(film: Film, ss: seq<Session>, rs: seq<Reservation>): Popularity
  {
    Popularity(film.title, SeatsOnSessions(rs, SelectSessions(ss, ByFilm(film.id))))
  }

  /** A film's figure is the seats of every reservation on one of its sessions, each counted once when session ids are unique. */
  lemma PopularityCountsItsBookings(film: Film, ss: seq<Session>, rs: seq<Reservation>)
    requires UniqueIds(ss, SessionId)
    ensures PopularityOf(film, ss, rs) == Popularity(film.title, SeatsSelected(rs, ss, ByFilm(film.id)))
  {
    SeatsOnSelectedSessions(rs, ss, ByFilm(film.id));
  }

  predicate Descending(ps: seq<Popularity>)
  {
    forall i, j :: 0 <= i < j < |ps| ==> ps[i].seats >= ps[j].seats
  }

  /** Puts `p` before the first entry that has no more seats than it. */
  function Insert(p: Popularity, ps: seq<Popularity>): (r: seq<Popularity>)
    ensures |r| == |ps| + 1
    ensures multiset(r) == multiset(ps) + multiset{p}
  {
    if ps == [] then [p]
    else if p.seats >= ps[0].seats then [p] + ps
    else
      assert ps == [ps[0]] + ps[1..];
      [ps[0]] + Insert(p, ps[1..])
  }

  /** An entry with at least the seats of every entry of a descending list can go in front of it. */
  lemma ConsKeepsDescending(x: Popularity, rest: seq<Popularity>)
    requires Descending(rest)
    requires forall j :: 0 <= j < |rest| ==> rest[j].seats <= x.seats
    ensures Descending([x] + rest)
  {
    var r := [x] + rest;
    forall i, j | 0 <= i < j < |r| ensures r[i].seats >= r[j].seats {
      assert r[j] == rest[j - 1];
      if i > 0 {
        assert r[i] == rest[i - 1];
      }
    }
  }

  lemma DescendingTail(ps: seq<Popularity>)
    requires |ps| > 0 && Descending(ps)
    ensures Descending(ps[1..])
    ensures forall j :: 0 <= j < |ps| - 1 ==> ps[1..][j].seats <= ps[0].seats
  {
    forall i, j | 0 <= i < j < |ps| - 1 ensures ps[1..][i].seats >= ps[1..][j].seats {
      assert ps[1..][i] == ps[i + 1] && ps[1..][j] == ps[j + 1];
    }
  }

  /** Inserting into entries that all have at most `bound` seats an entry that has at most `bound` keeps that bound. */
  lemma InsertBounded(p: Popularity, ps: seq<Popularity>, bound: nat)
    requires p.seats <= bound && forall j :: 0 <= j < |ps| ==> ps[j].seats <= bound
    ensures forall j :: 0 <= j < |Insert(p, ps)| ==> Insert(p, ps)[j].seats <= bound
  {
    var r := Insert(p, ps);
    forall j | 0 <= j < |r| ensures r[j].seats <= bound {
      assert r[j] in multiset(r);
      if r[j] != p {
        assert r[j] in multiset(ps);
      }
    }
  }

  lemma {:induction false} InsertKeepsDescending(p: Popularity, ps: seq<Popularity>)
    requires Descending(ps)
    ensures Descending(Insert(p, ps))
  {
    if ps != [] {
      if p.seats >= ps[0].seats {
        ConsKeepsDescending(p, ps);
      } else {
        DescendingTail(ps);
        InsertKeepsDescending(p, ps[1..]);
        InsertBounded(p, ps[1..], ps[0].seats);
        ConsKeepsDescending(ps[0], Insert(p, ps[1..]));
      }
    }
  }

  /** `sort((a, b) => b.seats - a.seats)`: the same entries, most seats first. */
  function SortBySeats(ps: seq<Popularity>): (sorted: seq<Popularity>)
    ensures |sorted| == |ps|
    ensures multiset(sorted) == multiset(ps)
    ensures Descending(sorted)
  {
    if ps == [] then []
    else
      assert ps == [ps[0]] + ps[1..];
      var rest := SortBySeats(ps[1..]);
      InsertKeepsDescending(ps[0], rest);
      Insert(ps[0], rest)
  }

  /** The popularity of every film, in the films' order. */
  function Popularities(films: seq<Film>, ss: seq<Session>, rs: seq<Reservation>): (all: seq<Popularity>)
    ensures |all| == |films|
    ensures forall k :: 0 <= k < |films| ==> all[k] == PopularityOf(films[k], ss, rs)
  {
    seq(|films|, k requires 0 <= k < |films| => PopularityOf(films[k], ss, rs))
  }

  /** How many films the chart shows. */
  const TOP_COUNT: nat := 5

  /** The top-films chart: the popularity of every film, sorted by seats and cut to five. */
  function TopFilms(films: seq<Film>, ss: seq<Session>, rs: seq<Reservation>): seq<Popularity>
  {
    var sorted := SortBySeats(Popularities(films, ss, rs));
    sorted[..if |sorted| < TOP_COUNT then |sorted| else TOP_COUNT]
  }

  /**
   * The chart shows five films (all of them when fewer), in non-increasing
   * order of seats, each bar the figure of one of the films, and no film
   * left out has more seats than a film shown.
   */
  lemma TopFilmsAreTheMostBooked(films: seq<Film>, ss: seq<Session>, rs: seq<Reservation>)
    ensures |TopFilms(films, ss, rs)| == if |films| < TOP_COUNT then |films| else TOP_COUNT
    ensures Descending(TopFilms(films, ss, rs))
    ensures forall p :: p in TopFilms(films, ss, rs) ==> p in Popularities(films, ss, rs)
    ensures forall q, p :: q in Popularities(films, ss, rs) && q !in TopFilms(films, ss, rs) && p in TopFilms(films, ss, rs)
              ==> p.seats >= q.seats
  {
    var all := Popularities(films, ss, rs);
    var sorted := SortBySeats(all);
    var top := TopFilms(films, ss, rs);
    var n := |top|;
    assert top == sorted[..n];
    forall p | p in top ensures p in all {
      assert p in multiset(sorted);
    }
    forall q, p | q in all && q !in top && p in top ensures p.seats >= q.seats {
      assert q in multiset(sorted);
      var j :| 0 <= j < |sorted| && sorted[j] == q;
      var i :| 0 <= i < n && top[i] == p;
      assert n <= j;
    }
  }
}

=== FILE: films.dfy ===
/**
 * The rules of the films page: the record building of its submit handler.
 * Its delete has no guard, so sessions can outlive their film.
 */
module Films {
  import opened Records
  import opened Collections

  /** The record the submit handler pushes: `{ id: maxId + 1, ...formData }`. */
  function NewFilm(id: Id, f: FilmForm): (film: Film)
    ensures film.id == id && FilmFormOf(film) == f
  {
    Film(id, f.title, f.genre, f.duration, f.releaseDate)
  }

  /** `{ ...films[index], ...formData }`: every field but the id comes from the form. */
  function MergeFilm(film: Film, f: FilmForm): (m: Film)
    ensures m.id == film.id && FilmFormOf(m) == f
  {
    film.(title := f.title, genre := f.genre, duration := f.duration, releaseDate := f.releaseDate)
  }

  /** The fields of a film that its form edits. */
  function FilmFormOf(film: Film): FilmForm
  {
    FilmForm(film.title, film.genre, film.duration, film.releaseDate)
  }

  /**
   * `deleteFilm` checks no session: deleting a film that a session shows
   * leaves that session naming a film that no longer exists.
   */
  lemma {:induction false} DeleteFilmOrphansItsSessions(fs: seq<Film>, ss: seq<Session>, id: Id)
    ensures forall k :: 0 <= k < |ss| && ss[k].filmId == id ==> !HasId(Remove(fs, FilmId, id), FilmId, ss[k].filmId)
    ensures forall other :: other != id ==> (HasId(Remove(fs, FilmId, id), FilmId, other) <==> HasId(fs, FilmId, other))
  {
    forall other | other != id
      ensures HasId(Remove(fs, FilmId, id), FilmId, other) <==> HasId(fs, FilmId, other)
    {
      RemoveKeepsOtherIds(fs, FilmId, id, other);
    }
  }
}

=== FILE: ledger.dfy ===
/**
 * The booking ledger: the five lists the admin pages share and one method
 * per submit or delete handler. Each handler checks first and writes
 * after, so a refused request leaves every list as it was.
 */
module BookingLedger {
  import opened Records
  import opened Collections
  import opened Sessions
  import opened Reservations
  import opened Clients
  import opened Rooms
  import opened Films
  import opened Pagination

  /**
   * What the handlers keep: unique ids in every list, no room booked twice
   * at a date and time, distinct client emails, and every reservation
   * naming an existing session.
   */
  ghost predicate Consistent(films: seq<Film>, rooms: seq<Room>, ss: seq<Session>, cs: seq<Client>, rs: seq<Reservation>)
  {
    && UniqueIds(films, FilmId)
    && UniqueIds(rooms, RoomId)
    && UniqueIds(ss, SessionId)
    && UniqueIds(cs, ClientId)
    && UniqueIds(rs, ReservationId)
    && NoDoubleBooking(ss)
    && EmailsDistinct(cs)
    && SessionsExist(rs, ss)
  }

  /** Deleting a session no reservation names keeps the lists consistent. */
  lemma RemoveUnbookedSessionKeepsConsistent(films: seq<Film>, rooms: seq<Room>, ss: seq<Session>, cs: seq<Client>, rs: seq<Reservation>, id: Id)
    requires Consistent(films, rooms, ss, cs, rs) && !HasReservations(rs, id)
    ensures Consistent(films, rooms, Remove(ss, SessionId, id), cs, rs)
  {
    RemoveKeepsUniqueIds(ss, SessionId, id);
    RemoveKeepsPairwise(ss, SessionId, id, DifferentSlots);
    RemoveUnbookedSessionKeepsSessionsExist(rs, ss, id);
  }

  /** Deleting a reservation keeps the lists consistent. */
  lemma RemoveReservationKeepsConsistent(films: seq<Film>, rooms: seq<Room>, ss: seq<Session>, cs: seq<Client>, rs: seq<Reservation>, id: Id)
    requires Consistent(films, rooms, ss, cs, rs)
    ensures Consistent(films, rooms, ss, cs, Remove(rs, ReservationId, id))
  {
    RemoveKeepsUniqueIds(rs, ReservationId, id);
    RemoveReservationKeepsSessionsExist(rs, ss, id);
  }

  /** Saving a reservation for an existing session, added or edited in place, keeps the lists consistent. */
  lemma AddReservationKeepsConsistent(films: seq<Film>, rooms: seq<Room>, ss: seq<Session>, cs: seq<Client>, rs: seq<Reservation>,
                                      f: ReservationForm, today: string)
    requires Consistent(films, rooms, ss, cs, rs) && HasId(ss, SessionId, f.sessionId)
    ensures Consistent(films, rooms, ss, cs, rs + [NewReservation(NextId(rs, ReservationId), f, today)])
  {
    AppendNextIdKeepsUniqueIds(rs, ReservationId, NewReservation(NextId(rs, ReservationId), f, today));
  }

  /** Editing a reservation so that it names an existing session keeps the lists consistent. */
  lemma EditReservationKeepsConsistent(films: seq<Film>, rooms: seq<Room>, ss: seq<Session>, cs: seq<Client>, rs: seq<Reservation>,
                                       k: nat, f: ReservationForm)
    requires Consistent(films, rooms, ss, cs, rs) && HasId(ss, SessionId, f.sessionId)
    requires k < |rs|
    ensures Consistent(films, rooms, ss, cs, rs[k := MergeReservation(rs[k], f)])
  {
    UpdateSameIdKeepsUniqueIds(rs, ReservationId, k, MergeReservation(rs[k], f));
  }

  /** A session added after the conflict check passed keeps the lists consistent. */
  lemma AddSessionKeepsConsistent(films: seq<Film>, rooms: seq<Room>, ss: seq<Session>, cs: seq<Client>, rs: seq<Reservation>,
                                  f: SessionForm)
    requires Consistent(films, rooms, ss, cs, rs) && !Conflict(ss, None, f)
    ensures Consistent(films, rooms, ss + [NewSession(NextId(ss, SessionId), f)], cs, rs)
  {
    var session := NewSession(NextId(ss, SessionId), f);
    AppendNextIdKeepsUniqueIds(ss, SessionId, session);
    AddSessionKeepsNoDoubleBooking(ss, f);
    forall k | 0 <= k < |rs| ensures HasId(ss + [session], SessionId, rs[k].sessionId) {
      FindAppend(ss, SessionId, session, rs[k].sessionId);
    }
  }

  /** A session edited in place after the conflict check passed keeps the lists consistent. */
  lemma EditSessionKeepsConsistent(films: seq<Film>, rooms: seq<Room>, ss: seq<Session>, cs: seq<Client>, rs: seq<Reservation>,
                                   k: nat, f: SessionForm)
    requires Consistent(films, rooms, ss, cs, rs)
    requires k < |ss| && !Conflict(ss, Some(ss[k].id), f)
    ensures Consistent(films, rooms, ss[k := MergeSession(ss[k], f)], cs, rs)
  {
    var merged := MergeSession(ss[k], f);
    UpdateSameIdKeepsUniqueIds(ss, SessionId, k, merged);
    EditSessionKeepsNoDoubleBooking(ss, k, f);
    forall r | 0 <= r < |rs| ensures HasId(ss[k := merged], SessionId, rs[r].sessionId) {
      var j :| 0 <= j < |ss| && SessionId(ss[j]) == rs[r].sessionId;
      assert SessionId(ss[k := merged][j]) == rs[r].sessionId;
    }
  }

  class Ledger {
    var films: seq<Film>
    var rooms: seq<Room>
    var sessions: seq<Session>
    var clients: seq<Client>
    var reservations: seq<Reservation>

    /** The lists as loaded from storage. */
    constructor(films: seq<Film>, rooms: seq<Room>, sessions: seq<Session>, clients: seq<Client>, reservations: seq<Reservation>)
      ensures this.films == films && this.rooms == rooms && this.sessions == sessions
      ensures this.clients == clients && this.reservations == reservations
    {
      this.films := films;
      this.rooms := rooms;
      this.sessions := sessions;
      this.clients := clients;
      this.reservations := reservations;
    }

    /**
     * What the handlers keep: unique ids in every list, no room booked twice
     * at a date and time, distinct client emails, and every reservation
     * naming an existing session.
     */
    ghost predicate Valid()
      reads this
    {
      Consistent(films, rooms, sessions, clients, reservations)
    }

    /** No session holds more active seats than its room has. */
    ghost predicate WithinCapacity()
      reads this
    {
      CapacityRespected(reservations, sessions, rooms)
    }

    /**
     * The films form. Adding pushes a film with the next id; editing
     * overwrites every field but the id of the first film with the edited
     * id, and does nothing when there is none.
     */
    method SubmitFilm(editingId: Option<Id>, f: FilmForm) returns (outcome: Outcome)
      modifies this`films
      ensures outcome == Ok
      ensures editingId.None? ==> films == old(films) + [NewFilm(NextId(old(films), FilmId), f)]
      ensures editingId.Some? ==> match FindIndex(old(films), FilmId, editingId.value)
        case None => films == old(films)
        case Some(i) => films == old(films)[i := MergeFilm(old(films)[i], f)] && films[i].id == editingId.value
      ensures old(Valid()) ==> Valid()
      ensures old(WithinCapacity()) ==> WithinCapacity()
    {
      match editingId {
        case None =>
          var film := NewFilm(NextId(films, FilmId), f);
          if UniqueIds(films, FilmId) {
            AppendNextIdKeepsUniqueIds(films, FilmId, film);
          }
          films := films + [film];
        case Some(e) =>
          match FindIndex(films, FilmId, e) {
            case None =>
            case Some(i) =>
              if UniqueIds(films, FilmId) {
                UpdateSameIdKeepsUniqueIds(films, FilmId, i, MergeFilm(films[i], f));
              }
              films := films[i := MergeFilm(films[i], f)];
          }
      }
      outcome := Ok;
    }

    /**
     * The rooms form, with an empty equipment field stored as none. Editing
     * re-checks no booking, so only adding keeps the sessions within
     * capacity.
     */
    method SubmitRoom(editingId: Option<Id>, f: RoomForm) returns (outcome: Outcome)
      modifies this`rooms
      ensures outcome == Ok
      ensures editingId.None? ==> rooms == old(rooms) + [NewRoom(NextId(old(rooms), RoomId), f)]
      ensures editingId.Some? ==> match FindIndex(old(rooms), RoomId, editingId.value)
        case None => rooms == old(rooms)
        case Some(i) => rooms == old(rooms)[i := MergeRoom(old(rooms)[i], f)] && rooms[i].id == editingId.value
      ensures old(Valid()) ==> Valid()
      ensures editingId.None? && old(WithinCapacity()) ==> WithinCapacity()
    {
      match editingId {
        case None =>
          var room := NewRoom(NextId(rooms, RoomId), f);
          if UniqueIds(rooms, RoomId) {
            AppendNextIdKeepsUniqueIds(rooms, RoomId, room);
          }
          if CapacityRespected(reservations, sessions, rooms) {
            AddRoomKeepsCapacity(reservations, sessions, rooms, room);
          }
          rooms := rooms + [room];
        case Some(e) =>
          match FindIndex(rooms, RoomId, e) {
            case None =>
            case Some(i) =>
              if UniqueIds(rooms, RoomId) {
                UpdateSameIdKeepsUniqueIds(rooms, RoomId, i, MergeRoom(rooms[i], f));
              }
              rooms := rooms[i := MergeRoom(rooms[i], f)];
          }
      }
      outcome := Ok;
    }

    /**
     * The sessions form: refused exactly when another session holds the
     * same room at the same date and time. Editing re-checks no booking,
     * so only adding keeps the sessions within capacity.
     */
    method SubmitSession(editingId: Option<Id>, f: SessionForm) returns (outcome: Outcome)
      modifies this`sessions
      ensures outcome == RoomTimeConflict <==> Conflict(old(sessions), editingId, f)
      ensures outcome == Ok || outcome == RoomTimeConflict
      ensures outcome == RoomTimeConflict ==> sessions == old(sessions)
      ensures outcome == Ok && editingId.None? ==> sessions == old(sessions) + [NewSession(NextId(old(sessions), SessionId), f)]
      ensures outcome == Ok && editingId.Some? ==> match FindIndex(old(sessions), SessionId, editingId.value)
        case None => sessions == old(sessions)
        case Some(i) => sessions == old(sessions)[i := MergeSession(old(sessions)[i], f)] && sessions[i].id == editingId.value
      ensures old(Valid()) ==> Valid()
      ensures editingId.None? && old(Valid() && WithinCapacity()) ==> WithinCapacity()
    {
      if Conflict(sessions, editingId, f) {
        return RoomTimeConflict;
      }
      match editingId {
        case None =>
          var session := NewSession(NextId(sessions, SessionId), f);
          if Valid() {
            AddSessionKeepsConsistent(films, rooms, sessions, clients, reservations, f);
            if WithinCapacity() {
              AddSessionKeepsCapacity(reservations, sessions, rooms, f);
            }
          }
          sessions := sessions + [session];
        case Some(e) =>
          match FindIndex(sessions, SessionId, e) {
            case None =>
            case Some(k) =>
              var merged := MergeSession(sessions[k], f);
              if Valid() {
                EditSessionKeepsConsistent(films, rooms, sessions, clients, reservations, k, f);
              }
              sessions := sessions[k := merged];
          }
      }
      outcome := Ok;
    }

    /**
     * The clients form: refused when another client already has the email
     * (compared exactly), and when the edited client does not exist.
     * Editing keeps the id and the registration date.
     */
    method SubmitClient(editingId: Option<Id>, f: ClientForm, today: string) returns (outcome: Outcome)
      modifies this`clients
      ensures outcome == DuplicateEmail <==> EmailTaken(old(clients), editingId, f.email)
      ensures outcome == NotFound <==>
        !EmailTaken(old(clients), editingId, f.email) && editingId.Some? && !HasId(old(clients), ClientId, editingId.value)
      ensures outcome == Ok || outcome == DuplicateEmail || outcome == NotFound
      ensures outcome != Ok ==> clients == old(clients)
      ensures outcome == Ok && editingId.None? ==> clients == old(clients) + [NewClient(NextId(old(clients), ClientId), f, today)]
      ensures outcome == Ok && editingId.Some? ==>
        var i := FindIndex(old(clients), ClientId, editingId.value).value;
        clients == old(clients)[i := MergeClient(old(clients)[i], f)]
        && clients[i].id == editingId.value && clients[i].registrationDate == old(clients)[i].registrationDate
      ensures old(Valid()) ==> Valid()
      ensures old(WithinCapacity()) ==> WithinCapacity()
    {
      if EmailTaken(clients, editingId, f.email) {
        return DuplicateEmail;
      }
      match editingId {
        case None =>
          var client := NewClient(NextId(clients, ClientId), f, today);
          if Valid() {
            AppendNextIdKeepsUniqueIds(clients, ClientId, client);
            AddClientKeepsEmailsDistinct(clients, f, today);
          }
          clients := clients + [client];
        case Some(e) =>
          match FindIndex(clients, ClientId, e) {
            case None =>
              return NotFound;
            case Some(k) =>
              var merged := MergeClient(clients[k], f);
              if Valid() {
                UpdateSameIdKeepsUniqueIds(clients, ClientId, k, merged);
                EditClientKeepsEmailsDistinct(clients, k, f);
              }
              clients := clients[k := merged];
          }
      }
      outcome := Ok;
    }

    /**
     * The reservations form. Refused when the session does not exist;
     * otherwise refused exactly when the seats of the other active
     * reservations for the session plus the seats asked for exceed the
     * capacity of its room; then, when editing, refused when the edited
     * reservation does not exist. Editing keeps the id and the booking
     * date. A saved reservation leaves its session within capacity.
     */
    method SubmitReservation(editingId: Option<Id>, f: ReservationForm, today: string) returns (outcome: Outcome)
      modifies this`reservations
      ensures !HasId(sessions, SessionId, f.sessionId) ==> outcome == NotFound
      ensures HasId(sessions, SessionId, f.sessionId) ==>
        (outcome == CapacityExceeded <==> ExceedsCapacity(old(reservations), sessions, rooms, editingId, f))
      ensures outcome == Ok <==>
        HasId(sessions, SessionId, f.sessionId) && !ExceedsCapacity(old(reservations), sessions, rooms, editingId, f)
        && (editingId.None? || HasId(old(reservations), ReservationId, editingId.value))
      ensures outcome == Ok || outcome == NotFound || outcome == CapacityExceeded
      ensures outcome != Ok ==> reservations == old(reservations)
      ensures outcome == Ok && editingId.None? ==>
        reservations == old(reservations) + [NewReservation(NextId(old(reservations), ReservationId), f, today)]
      ensures outcome == Ok && editingId.Some? ==>
        var i := FindIndex(old(reservations), ReservationId, editingId.value).value;
        reservations == old(reservations)[i := MergeReservation(old(reservations)[i], f)]
        && reservations[i].id == editingId.value && reservations[i].bookingDate == old(reservations)[i].bookingDate
      ensures outcome == Ok && (editingId.None? || old(Valid())) ==>
        ActiveSeats(reservations, f.sessionId) <= SessionCapacity(sessions, rooms, f.sessionId)
      ensures old(Valid()) ==> Valid()
      ensures old(Valid() && WithinCapacity()) ==> WithinCapacity()
    {
      var held := SeatsHeld(reservations, f.sessionId, editingId);
      var session := Find(sessions, SessionId, f.sessionId);
      if session.None? {
        return NotFound;
      }
      if held + f.seats > RoomCapacity(rooms, session.value.roomId) {
        return CapacityExceeded;
      }
      match editingId {
        case None =>
          var r := NewReservation(NextId(reservations, ReservationId), f, today);
          AddKeepsCapacity(reservations, sessions, rooms, f, today);
          if Valid() {
            AddReservationKeepsConsistent(films, rooms, sessions, clients, reservations, f, today);
          }
          reservations := reservations + [r];
        case Some(e) =>
          match FindIndex(reservations, ReservationId, e) {
            case None =>
              return NotFound;
            case Some(k) =>
              var merged := MergeReservation(reservations[k], f);
              if Valid() {
                EditKeepsCapacity(reservations, sessions, rooms, k, f);
                EditReservationKeepsConsistent(films, rooms, sessions, clients, reservations, k, f);
              }
              reservations := reservations[k := merged];
          }
      }
      outcome := Ok;
    }

    /** `deleteFilm`: after the confirmation, removes the film with no check, and moves the pager back a page when needed. */
    method DeleteFilm(id: Id, confirmed: bool, pager: Pager) returns (outcome: Outcome)
      modifies this`films, pager
      ensures outcome == if confirmed then Ok else Declined
      ensures films == if confirmed then Remove(old(films), FilmId, id) else old(films)
      ensures pager.currentPage == old(pager.currentPage) - 1
          <==> confirmed && old(pager.currentPage) > PageCount(|films|) && old(pager.currentPage) > 1
      ensures pager.currentPage == old(pager.currentPage) || pager.currentPage == old(pager.currentPage) - 1
      ensures old(Valid()) ==> Valid()
      ensures old(WithinCapacity()) ==> WithinCapacity()
    {
      if !confirmed {
        return Declined;
      }
      var remaining := Remove(films, FilmId, id);
      if UniqueIds(films, FilmId) {
        RemoveKeepsUniqueIds(films, FilmId, id);
      }
      films := remaining;
      pager.AdjustAfterDelete(|remaining|);
      outcome := Ok;
    }

    /** `deleteRoom`: after the confirmation, refused while a session takes place in the room. */
    method DeleteRoom(id: Id, confirmed: bool, pager: Pager) returns (outcome: Outcome)
      modifies this`rooms, pager
      ensures outcome == if !confirmed then Declined else if RoomInUse(sessions, id) then HasDependents else Ok
      ensures rooms == if outcome == Ok then Remove(old(rooms), RoomId, id) else old(rooms)
      ensures pager.currentPage == old(pager.currentPage) - 1
          <==> outcome == Ok && old(pager.currentPage) > PageCount(|rooms|) && old(pager.currentPage) > 1
      ensures pager.currentPage == old(pager.currentPage) || pager.currentPage == old(pager.currentPage) - 1
      ensures old(Valid()) ==> Valid()
      ensures old(WithinCapacity()) ==> WithinCapacity()
    {
      if !confirmed {
        return Declined;
      }
      if RoomInUse(sessions, id) {
        return HasDependents;
      }
      var remaining := Remove(rooms, RoomId, id);
      if UniqueIds(rooms, RoomId) {
        RemoveKeepsUniqueIds(rooms, RoomId, id);
      }
      if WithinCapacity() {
        RemoveUnusedRoomKeepsCapacity(reservations, sessions, rooms, id);
      }
      rooms := remaining;
      pager.AdjustAfterDelete(|remaining|);
      outcome := Ok;
    }

    /** `deleteSession`: after the confirmation, refused while any reservation, in any status, names the session. */
    method DeleteSession(id: Id, confirmed: bool, pager: Pager) returns (outcome: Outcome)
      modifies this`sessions, pager
      ensures outcome == if !confirmed then Declined else if HasReservations(reservations, id) then HasDependents else Ok
      ensures sessions == if outcome == Ok then Remove(old(sessions), SessionId, id) else old(sessions)
      ensures pager.currentPage == old(pager.currentPage) - 1
          <==> outcome == Ok && old(pager.currentPage) > PageCount(|sessions|) && old(pager.currentPage) > 1
      ensures pager.currentPage == old(pager.currentPage) || pager.currentPage == old(pager.currentPage) - 1
      ensures old(Valid()) ==> Valid()
      ensures old(WithinCapacity()) ==> WithinCapacity()
    {
      if !confirmed {
        return Declined;
      }
      if HasReservations(reservations, id) {
        return HasDependents;
      }
      var remaining := Remove(sessions, SessionId, id);
      if Valid() {
        RemoveUnbookedSessionKeepsConsistent(films, rooms, sessions, clients, reservations, id);
      }
      if WithinCapacity() {
        RemoveSessionKeepsCapacity(reservations, sessions, rooms, id);
      }
      sessions := remaining;
      pager.AdjustAfterDelete(|remaining|);
      outcome := Ok;
    }

    /** `deleteClient`: after the confirmation, refused while the client has a reservation, in any status. */
    method DeleteClient(id: Id, confirmed: bool, pager: Pager) returns (outcome: Outcome)
      modifies this`clients, pager
      ensures outcome == if !confirmed then Declined else if ReservationCount(reservations, id) > 0 then HasDependents else Ok
      ensures outcome == HasDependents <==> confirmed && HasBookings(reservations, id)
      ensures clients == if outcome == Ok then Remove(old(clients), ClientId, id) else old(clients)
      ensures pager.currentPage == old(pager.currentPage) - 1
          <==> outcome == Ok && old(pager.currentPage) > PageCount(|clients|) && old(pager.currentPage) > 1
      ensures pager.currentPage == old(pager.currentPage) || pager.currentPage == old(pager.currentPage) - 1
      ensures old(Valid()) ==> Valid()
      ensures old(WithinCapacity()) ==> WithinCapacity()
    {
      ReservationCountZero(reservations, id);
      if !confirmed {
        return Declined;
      }
      if ReservationCount(reservations, id) > 0 {
        return HasDependents;
      }
      var remaining := Remove(clients, ClientId, id);
      if Valid() {
        RemoveKeepsUniqueIds(clients, ClientId, id);
        RemoveKeepsPairwise(clients, ClientId, id, DifferentEmails);
      }
      clients := remaining;
      pager.AdjustAfterDelete(|remaining|);
      outcome := Ok;
    }

    /** `deleteReservation`: after the confirmation, removes the reservation with no check. */
    method DeleteReservation(id: Id, confirmed: bool, pager: Pager) returns (outcome: Outcome)
      modifies this`reservations, pager
      ensures outcome == if confirmed then Ok else Declined
      ensures reservations == if confirmed then Remove(old(reservations), ReservationId, id) else old(reservations)
      ensures pager.currentPage == old(pager.currentPage) - 1
          <==> confirmed && old(pager.currentPage) > PageCount(|reservations|) && old(pager.currentPage) > 1
      ensures pager.currentPage == old(pager.currentPage) || pager.currentPage == old(pager.currentPage) - 1
      ensures old(Valid()) ==> Valid()
      ensures old(WithinCapacity()) ==> WithinCapacity()
    {
      if !confirmed {
        return Declined;
      }
      var remaining := Remove(reservations, ReservationId, id);
      if Valid() {
        RemoveReservationKeepsConsistent(films, rooms, sessions, clients, reservations, id);
      }
      if WithinCapacity() {
        DeleteKeepsCapacity(reservations, sessions, rooms, id);
      }
      reservations := remaining;
      pager.AdjustAfterDelete(|remaining|);
      outcome := Ok;
    }
  }
}

=== FILE: pagination.dfy ===
/**
 * The table pagination every page repeats: five rows per page, the slice
 * of the (filtered) list shown on the current page, and the
 * `currentPage` that the previous/next buttons, the search box and the
 * delete handlers move.
 */
module Pagination {

  /** `itemsPerPage`. */
  const PAGE_SIZE: nat := 5

  /** `Math.ceil(n / itemsPerPage)`: the fewest pages of five that hold `n` rows. */
  function PageCount(n: nat): (c: nat)
    ensures c * PAGE_SIZE >= n
    ensures c > 0 ==> (c - 1) * PAGE_SIZE < n
    ensures c == 0 <==> n == 0
  {
    (n + PAGE_SIZE - 1) / PAGE_SIZE
  }

  /** The last page the buttons can reach: page 1 is shown even for an empty list. */
  function LastPage(n: nat): (p: nat)
    ensures p >= 1 && p >= PageCount(n)
    ensures p == 1 || p == PageCount(n)
  {
    if PageCount(n) > 1 then PageCount(n) else 1
  }

  /**
   * `list.slice((page - 1) * 5, page * 5)`: the rows of the page, which the
   * slice clamps to the end of the list (empty past it).
   */
  function PageWindow<T>(xs: seq<T>, page: nat): (w: seq<T>)
    requires page >= 1
    ensures |w| <= PAGE_SIZE
    ensures |w| > 0 ==> (page - 1) * PAGE_SIZE + |w| <= |xs|
    ensures forall k :: 0 <= k < |w| ==> w[k] == xs[(page - 1) * PAGE_SIZE + k]
    ensures page <= PageCount(|xs|) <==> |w| > 0
    ensures page * PAGE_SIZE <= |xs| ==> |w| == PAGE_SIZE
    ensures (page - 1) * PAGE_SIZE < |xs| < page * PAGE_SIZE ==> (page - 1) * PAGE_SIZE + |w| == |xs|
  {
    var start := (page - 1) * PAGE_SIZE;
    if start >= |xs| then []
    else if start + PAGE_SIZE <= |xs| then xs[start..start + PAGE_SIZE]
    else xs[start..]
  }

  /** Every row is shown on exactly one page: the `i / 5 + 1`-th, at position `i % 5`. */
  lemma RowOnItsPage<T>(xs: seq<T>, i: nat)
    requires i < |xs|
    ensures 1 <= i / PAGE_SIZE + 1 <= PageCount(|xs|)
    ensures i % PAGE_SIZE < |PageWindow(xs, i / PAGE_SIZE + 1)|
    ensures PageWindow(xs, i / PAGE_SIZE + 1)[i % PAGE_SIZE] == xs[i]
    ensures forall p :: p >= 1 && p != i / PAGE_SIZE + 1 ==> xs[i] !in PageWindow(xs, p) || exists k :: 0 <= k < |xs| && k != i && xs[k] == xs[i]
  {
    var p := i / PAGE_SIZE + 1;
    var start := (p - 1) * PAGE_SIZE;
    assert start <= i < start + PAGE_SIZE;
    forall q | q >= 1 && q != p && xs[i] in PageWindow(xs, q)
      ensures exists k :: 0 <= k < |xs| && k != i && xs[k] == xs[i]
    {
      var w := PageWindow(xs, q);
      var j :| 0 <= j < |w| && w[j] == xs[i];
      var k := (q - 1) * PAGE_SIZE + j;
      assert xs[k] == xs[i];
      if q < p {
        assert (q - 1) * PAGE_SIZE + PAGE_SIZE <= start;
      } else {
        assert (q - 1) * PAGE_SIZE >= start + PAGE_SIZE;
      }
    }
  }

  /** The page a table shows. */
  class Pager {
    var currentPage: nat

    /** Every page script starts at page 1. */
    constructor()
      ensures currentPage == 1
    {
      currentPage := 1;
    }

    /** The page shown is one the buttons can reach for a list of `n` rows. */
    predicate InRange(n: nat)
      reads this
    {
      1 <= currentPage <= LastPage(n)
    }

    /** `previousPage`: one page back, never below page 1. */
    method PreviousPage()
      modifies this
      ensures currentPage == if old(currentPage) > 1 then old(currentPage) - 1 else old(currentPage)
      ensures forall n: nat :: old(InRange(n)) ==> InRange(n)
    {
      if currentPage > 1 {
        currentPage := currentPage - 1;
      }
    }

    /** `nextPage` for a list of `n` rows: one page on, never past the last page. */
    method NextPage(n: nat)
      modifies this
      ensures currentPage == if old(currentPage) < PageCount(n) then old(currentPage) + 1 else old(currentPage)
      ensures old(InRange(n)) ==> InRange(n)
    {
      if currentPage < PageCount(n) {
        currentPage := currentPage + 1;
      }
    }

    /** A new search goes back to the first page. */
    method ShowFirstPage()
      modifies this
      ensures currentPage == 1
    {
      currentPage := 1;
    }

    /**
     * The page adjustment after a delete that leaves `n` rows: one page
     * back exactly when the current page is past the last page and is not
     * page 1. A page at most one past the last is back in range.
     */
    method AdjustAfterDelete(n: nat)
      modifies this
      ensures currentPage == old(currentPage) - 1 <==> old(currentPage) > PageCount(n) && old(currentPage) > 1
      ensures currentPage == old(currentPage) || currentPage == old(currentPage) - 1
      ensures 1 <= old(currentPage) <= LastPage(n) + 1 ==> InRange(n)
    {
      if currentPage > PageCount(n) && currentPage > 1 {
        currentPage := currentPage - 1;
      }
    }
  }
}

=== FILE: records.dfy ===
/**
 * The five kinds of record the cinema admin panel keeps (films, rooms,
 * sessions, clients, reservations), the form data its submit handlers read,
 * and the outcome every handler reports back.
 */
module Records {

  /** A positive integer: ids, seat counts, room capacities, film durations. */
  type Pos = n: int | 1 <= n witness 1

  /** Every id is assigned as "largest id + 1, or 1", so ids are positive. */
  type Id = Pos

  datatype Option<+T> = None | Some(value: T)

  /** What a submit or delete handler reports: success, or why nothing was written. */
  datatype Outcome =
    | Ok
    | NotFound          // a referenced record does not exist (the code throws)
    | CapacityExceeded  // the booking would overfill the session's room
    | RoomTimeConflict  // another session already holds the room at that date and time
    | DuplicateEmail    // another client already uses that email
    | HasDependents     // the record is still referenced and cannot be deleted
    | Declined          // the user answered "no" to the confirmation dialog

  datatype Status = Pending | Confirmed | Completed | Cancelled

  datatype Film = Film(id: Id, title: string, genre: string, duration: Pos, releaseDate: string)

  /** `equipment` is `None` where the code stores `null`. */
  datatype Room = Room(id: Id, number: string, capacity: Pos, roomType: string, equipment: Option<string>)

  /** `price` is in cents. */
  datatype Session = Session(id: Id, filmId: Id, roomId: Id, date: string, time: string, price: nat)

  datatype Client = Client(
    id: Id, firstName: string, lastName: string, email: string,
    phone: string, birthDate: string, registrationDate: string)

  datatype Reservation = Reservation(
    id: Id, clientId: Id, sessionId: Id, seats: Pos, status: Status, bookingDate: string)

  // The fields each page's form submits.
  datatype FilmForm = FilmForm(title: string, genre: string, duration: Pos, releaseDate: string)
  datatype RoomForm = RoomForm(number: string, capacity: Pos, roomType: string, equipment: string)
  datatype SessionForm = SessionForm(filmId: Id, roomId: Id, date: string, time: string, price: nat)
  datatype ClientForm = ClientForm(firstName: string, lastName: string, email: string, phone: string, birthDate: string)
  datatype ReservationForm = ReservationForm(clientId: Id, sessionId: Id, seats: Pos, status: Status)

  // Id selectors, used to search and filter every collection the same way.
  function FilmId(f: Film): Id { f.id }
  function RoomId(r: Room): Id { r.id }
  function SessionId(s: Session): Id { s.id }
  function ClientId(c: Client): Id { c.id }
  function ReservationId(r: Reservation): Id { r.id }

  /**
   * The record with id `id` is not the one being edited: every record when
   * adding (`editingId` is null), all but the edited one when editing.
   */
  predicate IsOther(id: Id, editingId: Option<Id>)
  {
    editingId.None? || id != editingId.value
  }
}

=== FILE: reservations.dfy ===
/**
 * Seat accounting of the reservations page: the seats a session has left,
 * the capacity check of the submit handler, the statistics of
 * `updateStats` and the sessions its booking form offers. Only cancelled
 * reservations give their seats back.
 */
module Reservations {
  import opened Records
  import opened Collections
  import opened Sessions

  /**
   * The seats `r` holds against session `sid` in the capacity check: those
   * of a reservation for `sid` that is not cancelled and is not the one
   * being edited.
   */
  function Held(r: Reservation, sid: Id, editingId: Option<Id>): (h: nat)
    ensures h <= r.seats
    ensures r.status == Cancelled || r.sessionId != sid ==> h == 0
  {
    if r.sessionId == sid && r.status != Cancelled && IsOther(r.id, editingId) then r.seats else 0
  }

  /** The filter-and-sum of the submit handler over the reservations of `sid`. */
  function SeatsHeld(rs: seq<Reservation>, sid: Id, editingId: Option<Id>): (n: nat)
    ensures n <= AllSeats(rs, sid)
  {
    if rs == [] then 0 else Held(rs[0], sid, editingId) + SeatsHeld(rs[1..], sid, editingId)
  }

  /** The seats of the reservations for `sid` that are not cancelled. */
  function ActiveSeats(rs: seq<Reservation>, sid: Id): (n: nat)
    ensures n <= AllSeats(rs, sid)
  {
    SeatsHeld(rs, sid, None)
  }

  /** The seats of the cancelled reservations for `sid`. */
  function CancelledSeats(rs: seq<Reservation>, sid: Id): (n: nat)
    ensures n <= AllSeats(rs, sid)
  {
    if rs == [] then 0
    else
      var own := if rs[0].sessionId == sid && rs[0].status == Cancelled then rs[0].seats else 0;
      own + CancelledSeats(rs[1..], sid)
  }

  predicate HasCancelled(rs: seq<Reservation>, sid: Id)
  {
    exists i :: 0 <= i < |rs| && rs[i].sessionId == sid && rs[i].status == Cancelled
  }

  /**
   * `getAvailableSeats` of the reservations page: 0 for an unknown session,
   * otherwise the capacity of its room (0 for an unknown room) minus the
   * seats of its reservations that are not cancelled. It is negative when
   * the session is overbooked.
   */
  function AvailableSeats(rs: seq<Reservation>, ss: seq<Session>, rooms: seq<Room>, sid: Id): (n: int)
    ensures !HasId(ss, SessionId, sid) ==> n == 0
    ensures HasId(ss, SessionId, sid) ==> n + ActiveSeats(rs, sid) == SessionCapacity(ss, rooms, sid)
  {
    match Find(ss, SessionId, sid)
    case None => 0
    case Some(s) => RoomCapacity(rooms, s.roomId) - ActiveSeats(rs, sid)
  }

  /** Every seat of a session is either held by an active reservation or by a cancelled one. */
  lemma {:induction false} AllSeatsSplit(rs: seq<Reservation>, sid: Id)
    ensures AllSeats(rs, sid) == ActiveSeats(rs, sid) + CancelledSeats(rs, sid)
  {
    if rs != [] {
      AllSeatsSplit(rs[1..], sid);
    }
  }

  /** Cancelled reservations hold seats exactly when there is one (every booking has at least one seat). */
  lemma {:induction false} CancelledSeatsZero(rs: seq<Reservation>, sid: Id)
    ensures CancelledSeats(rs, sid) == 0 <==> !HasCancelled(rs, sid)
  {
    if rs != [] {
      CancelledSeatsZero(rs[1..], sid);
      if HasCancelled(rs[1..], sid) {
        var k :| 0 <= k < |rs| - 1 && rs[1..][k].sessionId == sid && rs[1..][k].status == Cancelled;
        assert rs[k + 1] == rs[1..][k];
      }
      if HasCancelled(rs, sid) && !(rs[0].sessionId == sid && rs[0].status == Cancelled) {
        var k :| 0 <= k < |rs| && rs[k].sessionId == sid && rs[k].status == Cancelled;
        assert rs[1..][k - 1] == rs[k];
      }
    }
  }

  /**
   * The two pages disagree on the seats left: the sessions page also counts
   * cancelled reservations, so it shows less, by exactly their seats, and the
   * same only when the session has no cancelled reservation.
   */
  lemma GrossAvailableAtMostAvailable(rs: seq<Reservation>, ss: seq<Session>, rooms: seq<Room>, sid: Id)
    requires HasId(ss, SessionId, sid)
    ensures GrossAvailableSeats(rs, ss, rooms, sid) == AvailableSeats(rs, ss, rooms, sid) - CancelledSeats(rs, sid)
    ensures GrossAvailableSeats(rs, ss, rooms, sid) <= AvailableSeats(rs, ss, rooms, sid)
    ensures GrossAvailableSeats(rs, ss, rooms, sid) == AvailableSeats(rs, ss, rooms, sid) <==> !HasCancelled(rs, sid)
  {
    AllSeatsSplit(rs, sid);
    CancelledSeatsZero(rs, sid);
  }

  /** Pushing a reservation adds its own seats to the sum. */
  lemma {:induction false} SeatsHeldAppend(rs: seq<Reservation>, r: Reservation, sid: Id, editingId: Option<Id>)
    ensures SeatsHeld(rs + [r], sid, editingId) == SeatsHeld(rs, sid, editingId) + Held(r, sid, editingId)
  {
    if rs == [] {
      assert [] + [r] == [r];
    } else {
      assert (rs + [r])[1..] == rs[1..] + [r];
      SeatsHeldAppend(rs[1..], r, sid, editingId);
    }
  }

  /** Overwriting one reservation swaps its seats in the sum for those of its replacement. */
  lemma {:induction false} SeatsHeldUpdate(rs: seq<Reservation>, i: nat, r: Reservation, sid: Id, editingId: Option<Id>)
    requires i < |rs|
    ensures SeatsHeld(rs[i := r], sid, editingId) + Held(rs[i], sid, editingId)
         == SeatsHeld(rs, sid, editingId) + Held(r, sid, editingId)
  {
    if i > 0 {
      assert rs[i := r][1..] == rs[1..][i - 1 := r];
      SeatsHeldUpdate(rs[1..], i - 1, r, sid, editingId);
    } else {
      assert rs[i := r][1..] == rs[1..];
    }
  }

  /** Excluding an id nobody has excludes nothing. */
  lemma {:induction false} SeatsHeldAbsentId(rs: seq<Reservation>, sid: Id, e: Id)
    requires !HasId(rs, ReservationId, e)
    ensures SeatsHeld(rs, sid, Some(e)) == ActiveSeats(rs, sid)
  {
    if rs != [] {
      assert !HasId(rs[1..], ReservationId, e) by {
        forall k | 0 <= k < |rs| - 1 ensures rs[1..][k].id != e {
          assert rs[1..][k] == rs[k + 1];
        }
      }
      SeatsHeldAbsentId(rs[1..], sid, e);
    }
  }

  /**
   * With unique ids, the active seats of a session are those the capacity
   * check counts when editing reservation `i`, plus those of `i` itself.
   */
  lemma {:induction false} SeatsHeldWithoutEdited(rs: seq<Reservation>, i: nat, sid: Id)
    requires UniqueIds(rs, ReservationId) && i < |rs|
    ensures ActiveSeats(rs, sid) == SeatsHeld(rs, sid, Some(rs[i].id)) + Held(rs[i], sid, None)
  {
    assert UniqueIds(rs[1..], ReservationId) by {
      forall a, b | 0 <= a < b < |rs| - 1 ensures rs[1..][a].id != rs[1..][b].id {
        assert rs[1..][a] == rs[a + 1] && rs[1..][b] == rs[b + 1];
      }
    }
    if i == 0 {
      assert !HasId(rs[1..], ReservationId, rs[0].id) by {
        forall k | 0 <= k < |rs| - 1 ensures rs[1..][k].id != rs[0].id {
          assert rs[1..][k] == rs[k + 1];
        }
      }
      SeatsHeldAbsentId(rs[1..], sid, rs[0].id);
    } else {
      assert rs[1..][i - 1] == rs[i];
      SeatsHeldWithoutEdited(rs[1..], i - 1, sid);
    }
  }

  /** Deleting reservations never adds seats to a session. */
  lemma {:induction false} RemoveLowersActiveSeats(rs: seq<Reservation>, id: Id, sid: Id)
    ensures ActiveSeats(Remove(rs, ReservationId, id), sid) <= ActiveSeats(rs, sid)
  {
    if rs != [] {
      RemoveLowersActiveSeats(rs[1..], id, sid);
      var rest := Remove(rs[1..], ReservationId, id);
      if rs[0].id != id {
        assert ([rs[0]] + rest)[1..] == rest;
      } else {
        assert Remove(rs, ReservationId, id) == rest;
      }
    }
  }

  /**
   * The invariant the capacity check protects: no listed session holds more
   * active seats than its room has.
   */
  predicate CapacityRespected(rs: seq<Reservation>, ss: seq<Session>, rooms: seq<Room>)
  {
    forall k :: 0 <= k < |ss| ==> ActiveSeats(rs, ss[k].id) <= SessionCapacity(ss, rooms, ss[k].id)
  }

  /** The invariant holds exactly when no listed session shows a negative number of seats left. */
  lemma CapacityRespectedIffNoneNegative(rs: seq<Reservation>, ss: seq<Session>, rooms: seq<Room>)
    ensures CapacityRespected(rs, ss, rooms)
        <==> forall k :: 0 <= k < |ss| ==> AvailableSeats(rs, ss, rooms, ss[k].id) >= 0
  {
    forall k | 0 <= k < |ss| ensures HasId(ss, SessionId, ss[k].id) {
    }
  }

  /**
   * The capacity check of the submit handler refuses the save: the seats of
   * the other active reservations for the session plus the seats asked for
   * exceed the capacity of the session's room.
   */
  predicate ExceedsCapacity(rs: seq<Reservation>, ss: seq<Session>, rooms: seq<Room>, editingId: Option<Id>, f: ReservationForm)
  {
    SeatsHeld(rs, f.sessionId, editingId) + f.seats > SessionCapacity(ss, rooms, f.sessionId)
  }

  /** The record the submit handler pushes, booked `today`. */
  function NewReservation(id: Id, f: ReservationForm, today: string): (r: Reservation)
    ensures r.id == id && r.bookingDate == today && ReservationFormOf(r) == f
  {
    Reservation(id, f.clientId, f.sessionId, f.seats, f.status, today)
  }

  /** `{ ...reservations[index], ...formData }` with the original booking date put back. */
  function MergeReservation(r: Reservation, f: ReservationForm): (m: Reservation)
    ensures m.id == r.id && m.bookingDate == r.bookingDate
    ensures ReservationFormOf(m) == f
  {
    r.(clientId := f.clientId, sessionId := f.sessionId, seats := f.seats, status := f.status)
  }

  /** The fields of a reservation that the booking form edits. */
  function ReservationFormOf(r: Reservation): ReservationForm
  {
    ReservationForm(r.clientId, r.sessionId, r.seats, r.status)
  }

  /** A booking pushed after the capacity check passed keeps every session within capacity. */
  lemma AddKeepsCapacity(rs: seq<Reservation>, ss: seq<Session>, rooms: seq<Room>, f: ReservationForm, today: string)
    requires !ExceedsCapacity(rs, ss, rooms, None, f)
    ensures ActiveSeats(rs + [NewReservation(NextId(rs, ReservationId), f, today)], f.sessionId)
         <= SessionCapacity(ss, rooms, f.sessionId)
    ensures CapacityRespected(rs, ss, rooms)
        ==> CapacityRespected(rs + [NewReservation(NextId(rs, ReservationId), f, today)], ss, rooms)
  {
    var n := NewReservation(NextId(rs, ReservationId), f, today);
    SeatsHeldAppend(rs, n, f.sessionId, None);
    forall k | 0 <= k < |ss|
      ensures ActiveSeats(rs + [n], ss[k].id) == ActiveSeats(rs, ss[k].id) + Held(n, ss[k].id, None)
    {
      SeatsHeldAppend(rs, n, ss[k].id, None);
    }
  }

  /**
   * An edit that passed the capacity check keeps the target session within
   * capacity, and every session within capacity if they all were, provided
   * reservation ids are unique.
   */
  lemma EditKeepsCapacity(rs: seq<Reservation>, ss: seq<Session>, rooms: seq<Room>, i: nat, f: ReservationForm)
    requires UniqueIds(rs, ReservationId) && i < |rs|
    requires !ExceedsCapacity(rs, ss, rooms, Some(rs[i].id), f)
    ensures ActiveSeats(rs[i := MergeReservation(rs[i], f)], f.sessionId) <= SessionCapacity(ss, rooms, f.sessionId)
    ensures CapacityRespected(rs, ss, rooms) ==> CapacityRespected(rs[i := MergeReservation(rs[i], f)], ss, rooms)
  {
    var m := MergeReservation(rs[i], f);
    var ys := rs[i := m];
    var e := rs[i].id;
    UpdateSameIdKeepsUniqueIds(rs, ReservationId, i, m);
    SeatsHeldWithoutEdited(ys, i, f.sessionId);
    SeatsHeldUpdate(rs, i, m, f.sessionId, Some(e));
    forall k | 0 <= k < |ss| && ss[k].id != f.sessionId
      ensures ActiveSeats(ys, ss[k].id) <= ActiveSeats(rs, ss[k].id)
    {
      SeatsHeldUpdate(rs, i, m, ss[k].id, None);
    }
  }

  /** Deleting reservations keeps every session within capacity. */
  lemma DeleteKeepsCapacity(rs: seq<Reservation>, ss: seq<Session>, rooms: seq<Room>, id: Id)
    requires CapacityRespected(rs, ss, rooms)
    ensures CapacityRespected(Remove(rs, ReservationId, id), ss, rooms)
  {
    forall k | 0 <= k < |ss| ensures ActiveSeats(Remove(rs, ReservationId, id), ss[k].id) <= ActiveSeats(rs, ss[k].id) {
      RemoveLowersActiveSeats(rs, id, ss[k].id);
    }
  }

  /** Deleting a session leaves the capacity of every other session as it was. */
  lemma RemoveSessionKeepsCapacity(rs: seq<Reservation>, ss: seq<Session>, rooms: seq<Room>, sid: Id)
    requires CapacityRespected(rs, ss, rooms)
    ensures CapacityRespected(rs, Remove(ss, SessionId, sid), rooms)
  {
    var ys := Remove(ss, SessionId, sid);
    forall k | 0 <= k < |ys| ensures ActiveSeats(rs, ys[k].id) <= SessionCapacity(ys, rooms, ys[k].id) {
      FindAfterRemove(ss, SessionId, sid, ys[k].id);
      var j :| 0 <= j < |ss| && ss[j] == ys[k];
      assert ActiveSeats(rs, ss[j].id) <= SessionCapacity(ss, rooms, ss[j].id);
    }
  }

  /**
   * Deleting a room no session uses leaves every session's capacity as it
   * was; without that guard, the sessions of the room would drop to
   * capacity 0.
   */
  lemma RemoveUnusedRoomKeepsCapacity(rs: seq<Reservation>, ss: seq<Session>, rooms: seq<Room>, roomId: Id)
    requires CapacityRespected(rs, ss, rooms)
    requires forall k :: 0 <= k < |ss| ==> ss[k].roomId != roomId
    ensures CapacityRespected(rs, ss, Remove(rooms, RoomId, roomId))
  {
    forall k | 0 <= k < |ss|
      ensures SessionCapacity(ss, Remove(rooms, RoomId, roomId), ss[k].id) == SessionCapacity(ss, rooms, ss[k].id)
    {
      var s := Find(ss, SessionId, ss[k].id).value;
      FindAfterRemove(rooms, RoomId, roomId, s.roomId);
    }
  }

  /**
   * A room of 100 seats with one session: a booking of 60 seats passes the
   * check and leaves 40; 50 more are refused; 40 more pass and leave none;
   * re-saving the first booking as cancelled passes and gives its 60 seats
   * back.
   */
  lemma CapacityScenario()
    ensures var rooms := [Room(1, "SAL-001", 100, "Standard", None)];
            var ss := [Session(1, 1, 1, "2024-01-15", "18:30", 1250)];
            var a := NewReservation(1, ReservationForm(1, 1, 60, Confirmed), "2024-01-10");
            var b := NewReservation(2, ReservationForm(2, 1, 40, Pending), "2024-01-11");
            var aCancelled := MergeReservation(a, ReservationForm(1, 1, 60, Cancelled));
            && !ExceedsCapacity([], ss, rooms, None, ReservationForm(1, 1, 60, Confirmed))
            && NextId([], ReservationId) == 1
            && AvailableSeats([a], ss, rooms, 1) == 40
            && ExceedsCapacity([a], ss, rooms, None, ReservationForm(2, 1, 50, Confirmed))
            && !ExceedsCapacity([a], ss, rooms, None, ReservationForm(2, 1, 40, Pending))
            && NextId([a], ReservationId) == 2
            && AvailableSeats([a, b], ss, rooms, 1) == 0
            && !ExceedsCapacity([a, b], ss, rooms, Some(1), ReservationForm(1, 1, 60, Cancelled))
            && [a, b][0 := aCancelled] == [aCancelled, b]
            && AvailableSeats([aCancelled, b], ss, rooms, 1) == 60
  {
    var rooms := [Room(1, "SAL-001", 100, "Standard", None)];
    var ss := [Session(1, 1, 1, "2024-01-15", "18:30", 1250)];
    var a := NewReservation(1, ReservationForm(1, 1, 60, Confirmed), "2024-01-10");
    var b := NewReservation(2, ReservationForm(2, 1, 40, Pending), "2024-01-11");
    var aCancelled := MergeReservation(a, ReservationForm(1, 1, 60, Cancelled));
    assert SessionCapacity(ss, rooms, 1) == 100;
    assert HasId(ss, SessionId, 1) by {
      assert SessionId(ss[0]) == 1;
    }
    assert [a][1..] == [] && [a, b][1..] == [b] && [b][1..] == [] && [aCancelled, b][1..] == [b];
    assert MaxId([a], ReservationId) == 1;
  }

  /**
   * Every reservation names a session that exists. The submit handler
   * refuses a missing session and a session with reservations cannot be
   * deleted, so the ledger keeps this.
   */
  predicate SessionsExist(rs: seq<Reservation>, ss: seq<Session>)
  {
    forall i :: 0 <= i < |rs| ==> HasId(ss, SessionId, rs[i].sessionId)
  }

  /**
   * A session pushed with the next id has no reservation yet when every
   * reservation names an existing session, so every session stays within
   * capacity.
   */
  lemma AddSessionKeepsCapacity(rs: seq<Reservation>, ss: seq<Session>, rooms: seq<Room>, f: SessionForm)
    requires SessionsExist(rs, ss)
    requires CapacityRespected(rs, ss, rooms)
    ensures CapacityRespected(rs, ss + [NewSession(NextId(ss, SessionId), f)], rooms)
  {
    var n := NewSession(NextId(ss, SessionId), f);
    var ys := ss + [n];
    forall k | 0 <= k < |ys| ensures ActiveSeats(rs, ys[k].id) <= SessionCapacity(ys, rooms, ys[k].id) {
      FindAppend(ss, SessionId, n, ys[k].id);
      if k == |ss| {
        assert !HasReservations(rs, n.id) by {
          forall i | 0 <= i < |rs| ensures rs[i].sessionId != n.id {
            assert HasId(ss, SessionId, rs[i].sessionId);
            var j :| 0 <= j < |ss| && SessionId(ss[j]) == rs[i].sessionId;
          }
        }
        AllSeatsZeroWithoutReservations(rs, n.id);
        AllSeatsSplit(rs, n.id);
      } else {
        assert ys[k] == ss[k];
      }
    }
  }

  /** A room pushed to the list never lowers the capacity of an existing session. */
  lemma AddRoomKeepsCapacity(rs: seq<Reservation>, ss: seq<Session>, rooms: seq<Room>, room: Room)
    requires CapacityRespected(rs, ss, rooms)
    ensures CapacityRespected(rs, ss, rooms + [room])
  {
    forall k | 0 <= k < |ss| ensures SessionCapacity(ss, rooms, ss[k].id) <= SessionCapacity(ss, rooms + [room], ss[k].id) {
      var s := Find(ss, SessionId, ss[k].id).value;
      FindAppend(rooms, RoomId, room, s.roomId);
    }
  }

  /** Deleting reservations leaves every remaining one naming an existing session. */
  lemma RemoveReservationKeepsSessionsExist(rs: seq<Reservation>, ss: seq<Session>, id: Id)
    requires SessionsExist(rs, ss)
    ensures SessionsExist(Remove(rs, ReservationId, id), ss)
  {
    var ys := Remove(rs, ReservationId, id);
    forall k | 0 <= k < |ys| ensures HasId(ss, SessionId, ys[k].sessionId) {
      var j :| 0 <= j < |rs| && rs[j] == ys[k];
    }
  }

  /** Deleting a session no reservation names keeps every reservation's session in place. */
  lemma RemoveUnbookedSessionKeepsSessionsExist(rs: seq<Reservation>, ss: seq<Session>, sid: Id)
    requires SessionsExist(rs, ss) && !HasReservations(rs, sid)
    ensures SessionsExist(rs, Remove(ss, SessionId, sid))
  {
    forall i | 0 <= i < |rs| ensures HasId(Remove(ss, SessionId, sid), SessionId, rs[i].sessionId) {
      RemoveKeepsOtherIds(ss, SessionId, sid, rs[i].sessionId);
    }
  }

  /** What one reservation earns: nothing when cancelled or when its session is gone. */
  function Earned(r: Reservation, ss: seq<Session>): (e: nat)
    ensures r.status == Cancelled || !HasId(ss, SessionId, r.sessionId) ==> e == 0
    ensures r.status != Cancelled ==>
      forall i :: 0 <= i < |ss| && ss[i].id == r.sessionId && UniqueIds(ss, SessionId) ==> e == ss[i].price * r.seats
  {
    if r.status == Cancelled then 0
    else match Find(ss, SessionId, r.sessionId)
      case None => 0
      case Some(s) => s.price * r.seats
  }

  /** The revenue of `updateStats`, in cents. */
  function Revenue(rs: seq<Reservation>, ss: seq<Session>): (rev: nat)
    ensures (forall i :: 0 <= i < |rs| ==> rs[i].status == Cancelled) ==> rev == 0
  {
    if rs == [] then 0 else Earned(rs[0], ss) + Revenue(rs[1..], ss)
  }

  /** The seat total of `updateStats`: every reservation, cancelled ones included. */
  function TotalSeats(rs: seq<Reservation>): (t: nat)
    ensures |rs| <= t
  {
    if rs == [] then 0 else rs[0].seats + TotalSeats(rs[1..])
  }

  /** A cancelled booking adds nothing to the revenue and all its seats to the seat total. */
  lemma {:induction false} TotalsAppend(rs: seq<Reservation>, ss: seq<Session>, r: Reservation)
    ensures Revenue(rs + [r], ss) == Revenue(rs, ss) + Earned(r, ss)
    ensures TotalSeats(rs + [r]) == TotalSeats(rs) + r.seats
    ensures r.status == Cancelled ==> Revenue(rs + [r], ss) == Revenue(rs, ss)
  {
    if rs == [] {
      assert [] + [r] == [r];
    } else {
      assert (rs + [r])[1..] == rs[1..] + [r];
      TotalsAppend(rs[1..], ss, r);
    }
  }

  /**
   * Two bookings, 2 seats at 10.00 confirmed and 1 seat at 5.00 cancelled,
   * earn 20.00: the cancelled one adds nothing.
   */
  lemma RevenueSkipsCancelledExample()
    ensures var ss := [Session(1, 1, 1, "2024-01-15", "18:30", 1000), Session(2, 1, 1, "2024-01-15", "21:00", 500)];
            var rs := [Reservation(1, 1, 1, 2, Confirmed, "2024-01-10"), Reservation(2, 1, 2, 1, Cancelled, "2024-01-10")];
            Revenue(rs, ss) == 2000 && TotalSeats(rs) == 3
  {
    var ss := [Session(1, 1, 1, "2024-01-15", "18:30", 1000), Session(2, 1, 1, "2024-01-15", "21:00", 500)];
    var rs := [Reservation(1, 1, 1, 2, Confirmed, "2024-01-10"), Reservation(2, 1, 2, 1, Cancelled, "2024-01-10")];
    assert rs[1..][1..] == [];
    assert Earned(rs[0], ss) == 2000;
  }

  /** The seat total bounds every session's seats and counts at least one seat per reservation. */
  lemma {:induction false} TotalSeatsBounds(rs: seq<Reservation>, sid: Id)
    ensures |rs| <= TotalSeats(rs)
    ensures AllSeats(rs, sid) <= TotalSeats(rs)
  {
    if rs != [] {
      TotalSeatsBounds(rs[1..], sid);
    }
  }

  /**
   * The sessions the booking form offers, in list order: those of `from`
   * with seats left, as `getAvailableSeats` counts them against `ss`.
   */
  function OfferedFrom(rs: seq<Reservation>, ss: seq<Session>, rooms: seq<Room>, from: seq<Session>): (offered: seq<Session>)
    ensures |offered| <= |from|
    ensures forall s :: s in offered <==> s in from && AvailableSeats(rs, ss, rooms, s.id) > 0
  {
    if from == [] then []
    else
      var rest := OfferedFrom(rs, ss, rooms, from[1..]);
      assert forall s :: s in from <==> s == from[0] || s in from[1..];
      if AvailableSeats(rs, ss, rooms, from[0].id) > 0 then [from[0]] + rest else rest
  }

  /** `populateDropdowns`: the sessions with at least one seat left. */
  function OfferedSessions(rs: seq<Reservation>, ss: seq<Session>, rooms: seq<Room>): (offered: seq<Session>)
    ensures forall s :: s in offered <==> s in ss && AvailableSeats(rs, ss, rooms, s.id) > 0
  {
    OfferedFrom(rs, ss, rooms, ss)
  }
  /**
   * Editing a session re-checks no booking: moving a session with 60 booked
   * seats from a room of 100 seats into one of 50 leaves it overbooked.
   */
  lemma SessionEditCanOverbook()
    ensures var rooms := [Room(1, "SAL-001", 100, "Standard", None), Room(2, "SAL-002", 50, "Standard", None)];
            var ss := [Session(1, 1, 1, "2024-01-15", "18:30", 1250)];
            var rs := [Reservation(1, 1, 1, 60, Confirmed, "2024-01-10")];
            CapacityRespected(rs, ss, rooms)
            && !CapacityRespected(rs, ss[0 := MergeSession(ss[0], SessionForm(1, 2, "2024-01-15", "18:30", 1250))], rooms)
  {
    var rooms := [Room(1, "SAL-001", 100, "Standard", None), Room(2, "SAL-002", 50, "Standard", None)];
    var ss := [Session(1, 1, 1, "2024-01-15", "18:30", 1250)];
    var rs := [Reservation(1, 1, 1, 60, Confirmed, "2024-01-10")];
    var moved := ss[0 := MergeSession(ss[0], SessionForm(1, 2, "2024-01-15", "18:30", 1250))];
    assert ActiveSeats(rs, 1) == 60 by {
      assert rs[1..] == [];
    }
    assert RoomCapacity(rooms, 2) == 50 by {
      assert rooms[1..] == [rooms[1]];
    }
    assert SessionCapacity(ss, rooms, 1) == 100;
    assert SessionCapacity(moved, rooms, 1) == 50;
  }

  /**
   * The capacity test adds the seats asked for whatever the status: in a
   * session overbooked with 60 seats in a room of 50, re-saving the booking
   * as cancelled is refused, while re-saving it with 50 seats passes.
   */
  lemma CancellingInOverbookedSessionRefused()
    ensures var rooms := [Room(1, "SAL-001", 50, "Standard", None)];
            var ss := [Session(1, 1, 1, "2024-01-15", "18:30", 1250)];
            var rs := [Reservation(1, 1, 1, 60, Confirmed, "2024-01-10")];
            && !CapacityRespected(rs, ss, rooms)
            && ExceedsCapacity(rs, ss, rooms, Some(1), ReservationForm(1, 1, 60, Cancelled))
            && !ExceedsCapacity(rs, ss, rooms, Some(1), ReservationForm(1, 1, 50, Confirmed))
  {
    var rooms := [Room(1, "SAL-001", 50, "Standard", None)];
    var ss := [Session(1, 1, 1, "2024-01-15", "18:30", 1250)];
    var rs := [Reservation(1, 1, 1, 60, Confirmed, "2024-01-10")];
    assert rs[1..] == [];
    assert SessionCapacity(ss, rooms, 1) == 50;
  }
}

=== FILE: rooms.dfy ===
/**
 * The rules of the rooms page: the equipment normalisation and record
 * building of its submit handler and the guard of its delete. Editing a
 * room re-checks nothing, so a smaller capacity can leave a session
 * overbooked.
 */
module Rooms {
  import opened Records
  import opened Collections
  import opened Sessions
  import opened Reservations

  /** `value || null`: an empty equipment field is stored as null, any other text as it is. */
  function NormaliseEquipment(text: string): (e: Option<string>)
    ensures e.None? <==> text == ""
    ensures e.Some? ==> e.value == text && |e.value| > 0
  {
    if text == "" then None else Some(text)
  }

  /** The record the submit handler pushes: `{ id: maxId + 1, ...formData }`. */
  function NewRoom(id: Id, f: RoomForm): (room: Room)
    ensures room.id == id && room.number == f.number && room.capacity == f.capacity && room.roomType == f.roomType
    ensures room.equipment == NormaliseEquipment(f.equipment)
    ensures room.equipment.None? <==> f.equipment == ""
  {
    Room(id, f.number, f.capacity, f.roomType, NormaliseEquipment(f.equipment))
  }

  /** `{ ...rooms[index], ...formData }`: every field but the id comes from the form. */
  function MergeRoom(r: Room, f: RoomForm): (m: Room)
    ensures m.id == r.id && m.number == f.number && m.capacity == f.capacity && m.roomType == f.roomType
    ensures m.equipment == NormaliseEquipment(f.equipment)
    ensures m.equipment.None? <==> f.equipment == ""
  {
    r.(number := f.number, capacity := f.capacity, roomType := f.roomType, equipment := NormaliseEquipment(f.equipment))
  }

  /** The guard of `deleteRoom`: some session takes place in the room. */
  predicate RoomInUse(ss: seq<Session>, roomId: Id)
  {
    exists k :: 0 <= k < |ss| && ss[k].roomId == roomId
  }

  /**
   * Editing a room re-checks no booking: a room of 100 seats whose session
   * holds 60 booked seats can be saved with 50 seats, and the session is
   * then overbooked.
   */
  lemma RoomEditCanOverbook()
    ensures var rooms := [Room(1, "SAL-001", 100, "Standard", None)];
            var ss := [Session(1, 1, 1, "2024-01-15", "18:30", 1250)];
            var rs := [Reservation(1, 1, 1, 60, Confirmed, "2024-01-10")];
            CapacityRespected(rs, ss, rooms)
            && !CapacityRespected(rs, ss, rooms[0 := MergeRoom(rooms[0], RoomForm("SAL-001", 50, "Standard", ""))])
  {
    var rooms := [Room(1, "SAL-001", 100, "Standard", None)];
    var ss := [Session(1, 1, 1, "2024-01-15", "18:30", 1250)];
    var rs := [Reservation(1, 1, 1, 60, Confirmed, "2024-01-10")];
    var smaller := rooms[0 := MergeRoom(rooms[0], RoomForm("SAL-001", 50, "Standard", ""))];
    assert ActiveSeats(rs, 1) == 60 by {
      assert rs[1..] == [];
    }
    assert SessionCapacity(ss, rooms, 1) == 100;
    assert SessionCapacity(ss, smaller, 1) == 50;
  }
}

=== FILE: sessions.dfy ===
/**
 * The rules of the sessions page: a room's capacity, the seats left as that
 * page counts them (every reservation, whatever its status), the
 * room/date/time conflict check of its submit handler and the guard of its
 * delete.
 */
module Sessions {
  import opened Records
  import opened Collections

  /** `getRoomCapacity`: the room's capacity, or 0 when no room has that id. */
  function RoomCapacity(rooms: seq<Room>, roomId: Id): (c: nat)
    ensures c == 0 <==> !HasId(rooms, RoomId, roomId)
    ensures forall i :: 0 <= i < |rooms| && rooms[i].id == roomId && UniqueIds(rooms, RoomId) ==> c == rooms[i].capacity
  {
    match Find(rooms, RoomId, roomId)
    case None => 0
    case Some(room) => room.capacity
  }

  /** The seats of every reservation for session `sid`, whatever its status. */
  function AllSeats(rs: seq<Reservation>, sid: Id): nat
  {
    if rs == [] then 0
    else (if rs[0].sessionId == sid then rs[0].seats else 0) + AllSeats(rs[1..], sid)
  }

  /**
   * The capacity the reservations page gives a session: that of the room of
   * the first session with id `sid` (0 when no room has its room id), or 0
   * when there is no such session.
   */
  function SessionCapacity(ss: seq<Session>, rooms: seq<Room>, sid: Id): (c: nat)
    ensures !HasId(ss, SessionId, sid) ==> c == 0
    ensures HasId(ss, SessionId, sid) ==> c == RoomCapacity(rooms, Find(ss, SessionId, sid).value.roomId)
  {
    match Find(ss, SessionId, sid)
    case None => 0
    case Some(s) => RoomCapacity(rooms, s.roomId)
  }

  /**
   * `getAvailableSeats` of the sessions page: capacity minus the seats of
   * every reservation for the session. The page script reads `session.roomId`
   * without checking that the session exists, so it must.
   */
  function GrossAvailableSeats(rs: seq<Reservation>, ss: seq<Session>, rooms: seq<Room>, sid: Id): (n: int)
    requires HasId(ss, SessionId, sid)
    ensures n + AllSeats(rs, sid) == SessionCapacity(ss, rooms, sid)
  {
    RoomCapacity(rooms, Find(ss, SessionId, sid).value.roomId) - AllSeats(rs, sid)
  }

  /** A room at a date and a time. */
  datatype Slot = Slot(roomId: Id, date: string, time: string)

  function SlotOf(s: Session): Slot { Slot(s.roomId, s.date, s.time) }

  function FormSlot(f: SessionForm): Slot { Slot(f.roomId, f.date, f.time) }

  /** The conflict `find` of the submit handler: another session holds the form's slot. */
  predicate Conflict(ss: seq<Session>, editingId: Option<Id>, f: SessionForm)
  {
    exists i :: 0 <= i < |ss| && IsOther(ss[i].id, editingId) && SlotOf(ss[i]) == FormSlot(f)
  }

  predicate DifferentSlots(a: Session, b: Session) { SlotOf(a) != SlotOf(b) }

  /** No room is booked twice at the same date and time. */
  predicate NoDoubleBooking(ss: seq<Session>) { Pairwise(ss, DifferentSlots) }

  /** The record the submit handler pushes: `{ id: maxId + 1, ...formData }`. */
  function NewSession(id: Id, f: SessionForm): (s: Session)
    ensures s.id == id && SessionFormOf(s) == f
  {
    Session(id, f.filmId, f.roomId, f.date, f.time, f.price)
  }

  /** `{ ...sessions[index], ...formData }`: every field but the id comes from the form. */
  function MergeSession(s: Session, f: SessionForm): (m: Session)
    ensures m.id == s.id && SessionFormOf(m) == f && SlotOf(m) == FormSlot(f)
  {
    s.(filmId := f.filmId, roomId := f.roomId, date := f.date, time := f.time, price := f.price)
  }

  /** The fields of a session that its form edits. */
  function SessionFormOf(s: Session): SessionForm
  {
    SessionForm(s.filmId, s.roomId, s.date, s.time, s.price)
  }

  /** A session pushed after the conflict check passed keeps the room bookings apart. */
  lemma AddSessionKeepsNoDoubleBooking(ss: seq<Session>, f: SessionForm)
    requires NoDoubleBooking(ss)
    requires !Conflict(ss, None, f)
    ensures NoDoubleBooking(ss + [NewSession(NextId(ss, SessionId), f)])
  {
    var ys := ss + [NewSession(NextId(ss, SessionId), f)];
    forall i, j | 0 <= i < j < |ys| ensures DifferentSlots(ys[i], ys[j]) {
      assert ys[i] == ss[i];
      if j < |ss| {
        assert ys[j] == ss[j];
      }
    }
  }

  /**
   * An edited session that passed the conflict check keeps the room bookings
   * apart, provided session ids are unique (the check skips every session
   * with the edited id, but only the first one is overwritten).
   */
  lemma EditSessionKeepsNoDoubleBooking(ss: seq<Session>, i: nat, f: SessionForm)
    requires NoDoubleBooking(ss) && UniqueIds(ss, SessionId)
    requires i < |ss|
    requires !Conflict(ss, Some(ss[i].id), f)
    ensures NoDoubleBooking(ss[i := MergeSession(ss[i], f)])
  {
    var ys := ss[i := MergeSession(ss[i], f)];
    forall a, b | 0 <= a < b < |ys| ensures DifferentSlots(ys[a], ys[b]) {
      if a == i {
        assert ss[b].id != ss[i].id;
      } else if b == i {
        assert ss[a].id != ss[i].id;
      }
    }
  }

  /** Saving a session unchanged into its own slot passes the conflict check. */
  lemma ResaveOwnSlotHasNoConflict(ss: seq<Session>, i: nat, f: SessionForm)
    requires NoDoubleBooking(ss) && UniqueIds(ss, SessionId)
    requires i < |ss| && FormSlot(f) == SlotOf(ss[i])
    ensures !Conflict(ss, Some(ss[i].id), f)
  {
    forall j | 0 <= j < |ss| && IsOther(ss[j].id, Some(ss[i].id))
      ensures SlotOf(ss[j]) != FormSlot(f)
    {
      if j < i {
        assert DifferentSlots(ss[j], ss[i]);
      } else {
        assert DifferentSlots(ss[i], ss[j]);
      }
    }
  }

  /** The guard of `deleteSession`: some reservation, whatever its status, names the session. */
  predicate HasReservations(rs: seq<Reservation>, sid: Id)
  {
    exists i :: 0 <= i < |rs| && rs[i].sessionId == sid
  }

  /** Some seat of a session is booked, in any status, exactly when the delete guard refuses it. */
  lemma {:induction false} AllSeatsZeroWithoutReservations(rs: seq<Reservation>, sid: Id)
    ensures AllSeats(rs, sid) == 0 <==> !HasReservations(rs, sid)
  {
    if rs != [] {
      AllSeatsZeroWithoutReservations(rs[1..], sid);
      assert HasReservations(rs, sid) <==> rs[0].sessionId == sid || HasReservations(rs[1..], sid) by {
        if HasReservations(rs[1..], sid) {
          var k :| 0 <= k < |rs| - 1 && rs[1..][k].sessionId == sid;
          assert rs[k + 1].sessionId == sid;
        }
        if HasReservations(rs, sid) && rs[0].sessionId != sid {
          var k :| 0 <= k < |rs| && rs[k].sessionId == sid;
          assert rs[1..][k - 1].sessionId == sid;
        }
      }
    }
  }
}
